=== FILE: README.md ===
# JDBC escape translator of OpenDDAL's JdbcConnection

This project models `JdbcConnection.translateSQL(String, boolean)` together
with its helpers `translateGetEnd`, `checkRunOver` and `found`. This is the
code that rewrites JDBC escape syntax (`{fn ...}`, `{call ...}`,
`{? = call ...}`, `{oj ...}`, `{d ...}`, `{ts ...}`, `{escape ...}`,
`{params ...}`, and native literals such as `{ 2024-01-01 }`) into plain
SQL before a statement reaches the session.

The translator makes one forward pass over the text:
- It skips quoted strings, `$$` blocks and comments.
- It counts `{`/`}` nesting.
- At the first `{` it copies the text into a `char[]`.
- It overwrites escape braces and some keywords with spaces, in place.
- Every failure is a syntax error at a character offset. A missing `=` also
  carries the expected token.

The project has six files:

- `results.dfy` (module `Results`): `Option`, `Result` and `Outcome`.
  `Outcome` is the result of a guard such as `checkRunOver`, which either
  passes or throws.
- `sql_text.dfy` (module `SqlText`): the JDK primitives the translator uses.
  These are `Character.isSpaceChar`, the case-insensitive `regionMatches`
  behind `found`, and `String.indexOf` for one and for two characters.
- `escape_translator.dfy` (module `EscapeTranslator`): the translator as pure
  functions. A `Scanner` is the state of the main `for` loop at the top of an
  iteration:
  - the cursor;
  - `level`;
  - the copy of the text, which is `None` while `chars` is still `null`.

  `Step` is one iteration, `Scan` is the rest of the loop plus the final
  checks, and `Translate` is the whole method.
- `jdbc_connection.dfy` (module `JdbcConnection`): the translator as the
  Java code runs it.
  - It is imperative.
  - It works on a lazily allocated `array<char>` and overwrites it in place.
  - Its loops are `while` loops with invariants.
  - Each method is proved equal to the pure function for the same step.
  - `TranslateSql` is proved equal to `Translate`.
- `translator_properties.dfy` (module `TranslatorProperties`) and
  `translation_examples.dfy` (module `TranslationExamples`): what the
  translator promises, proved about the pure model. The promises are:
  - which characters it may overwrite, and with what;
  - that quoted and commented spans are passed over whole;
  - where each kind of syntax error is raised;
  - what each kind of escape does to the buffer, the level and the cursor;
  - several whole translations, worked through step by step.

Where the behaviour of the code differs from a plain reading of the JDBC
escape syntax, the model follows the code:

- **Prefix matching.** Keywords match as case-insensitive prefixes, not as
  whole tokens. They are tried in the order `fn, escape, call, oj, ts, t, d,
  params`, so `{fnord x}` loses `fn` and `{table x}` is taken for `t`.
- **`?` and `=` stay.** In `{? = call ...}` neither the `?` nor the `=` is
  blanked. The keyword table is consulted at the `?`, which matches nothing.
- **The `{` of a native literal is rewritten.** In `{ 2024...}` the brace is
  blanked and `{` is written just before the digit. The closing `}` stays.
- **Where the cursor resumes:**
  - after a blanked keyword, two past the last blanked character
    (start + n + 1), so the character right after the keyword is never
    examined: in `{fn{ }` the inner `{` is passed over without counting;
  - after a kept keyword, one past the space that ends the token;
  - after any other token, one past its first character.
- **`$$` opens a block** only at the start of the text or after a character
  `<= ' '`.
- **An escape cut short fails at the end of the input.** `SELECT 1 {`
  fails while the spaces after the brace are skipped, at the input's length.
  A native literal without its `}`, and a token that runs to the end, also
  fail at the input's length. Only an escape whose token ends in a space
  before the end and whose `}` never comes (`{fn x`) reaches the final level
  check and fails at the last index.
- **Native literals ignore `$$`.** The native-literal scan skips quotes and
  comments but not `$$` blocks.
- **The output keeps the input's length.** For example,
  `SELECT {fn UPPER(name)} FROM t` becomes `SELECT     UPPER(name)  FROM t`:
  five spaces after `SELECT` (its own space, the blanked `{`, the blanked
  `fn` and the space after `fn`).
  `FunctionEscape` shows the same on a smaller input.

## Model

Source paths are relative to the repository root.

| member | source | states |
|---|---|---|
| SqlText.SpaceCharClass | openddal-engine/src/main/java/com/openddal/jdbc/JdbcConnection.java:212-215 | isSpaceChar holds for the space and the no-break and ideographic spaces, and not for tab, CR or LF |
| SqlText.Found | openddal-engine/src/main/java/com/openddal/jdbc/JdbcConnection.java:308-310 | found is false when the keyword would run past the end of the text |
| SqlText.FoundMatches | openddal-engine/src/main/java/com/openddal/jdbc/JdbcConnection.java:308-310 | found(sql, start, kw) holds exactly when the keyword fits and each of its letters matches, ignoring case, from start on (a prefix match) |
| SqlText.IndexOf | openddal-engine/src/main/java/com/openddal/jdbc/JdbcConnection.java:118-122 | indexOf(c, from) is -1 or an index at or after from holding c, and no earlier index from `from` on holds c |
| SqlText.IndexOf2 | openddal-engine/src/main/java/com/openddal/jdbc/JdbcConnection.java:109-113 | indexOf of a two-character string gives the first index at or after from where the pair occurs, or -1 if there is none |
| EscapeTranslator.CheckRunOver | openddal-engine/src/main/java/com/openddal/jdbc/JdbcConnection.java:302-306 | checkRunOver fails exactly when i >= len, with a syntax error at i |
| EscapeTranslator.LineEnd | openddal-engine/src/main/java/com/openddal/jdbc/JdbcConnection.java:142-145 | a line comment ends at the first CR or LF, or at the end of the text, with no line break before it |
| EscapeTranslator.SpanEnd | openddal-engine/src/main/java/com/openddal/jdbc/JdbcConnection.java:104-163 | translateGetEnd returns an index in [i, len]; len only for a line comment; every error is a syntax error at i, or at len for a trailing `/` or `-` |
| EscapeTranslator.QuoteSpan | openddal-engine/src/main/java/com/openddal/jdbc/JdbcConnection.java:117-130 | a quote fails at its own index exactly when no matching quote follows; otherwise the span ends at the first matching quote |
| EscapeTranslator.DollarSpan | openddal-engine/src/main/java/com/openddal/jdbc/JdbcConnection.java:107-116 | `$` is inert unless `$$` stands at the start or after a character <= ' '; an opened block fails exactly when no `$$` follows, else ends on the second `$` of the first one |
| EscapeTranslator.BlockCommentSpan | openddal-engine/src/main/java/com/openddal/jdbc/JdbcConnection.java:131-139 | a block comment fails exactly when no `*/` follows; otherwise it ends on the `/` of the first one |
| EscapeTranslator.LineCommentSpan | openddal-engine/src/main/java/com/openddal/jdbc/JdbcConnection.java:140-158 | `//` and `--` never fail; they end at the first line break or at the end of the text |
| EscapeTranslator.InertSpan | openddal-engine/src/main/java/com/openddal/jdbc/JdbcConnection.java:131-158 | a `/` or `-` that opens no comment is passed over, except as the last character, where checkRunOver fails at len |
| EscapeTranslator.SkipRun | openddal-engine/src/main/java/com/openddal/jdbc/JdbcConnection.java:212-215 | the skip loop stops at the first character on the other side of the run; it fails at len exactly when the run reaches the end |
| EscapeTranslator.AfterReturnAssign | openddal-engine/src/main/java/com/openddal/jdbc/JdbcConnection.java:238-254 | after `?` the cursor lands on a non-space at least two past it; a missing `=` is reported, with `=` expected, at the first non-space after `?`, which is then not `=` |
| EscapeTranslator.LiteralEnd | openddal-engine/src/main/java/com/openddal/jdbc/JdbcConnection.java:219-235 | the native-literal scan ends on a `}` of the buffer, or fails with a syntax error at or after its start; LiteralEndFirst states which `}` |
| EscapeTranslator.LiteralEndFirst | openddal-engine/src/main/java/com/openddal/jdbc/JdbcConnection.java:219-235 | the native-literal loop visits its stop, and no cursor it visits before the stop (each one past the previous character, or one past a skipped quote or comment) holds `}`: it stops at the first `}` it reaches |
| EscapeTranslator.LiteralEndPlain | openddal-engine/src/main/java/com/openddal/jdbc/JdbcConnection.java:219-235 | conversely, with no `}` and no quote or comment start before a `}`, the scan stops at that `}` |
| EscapeTranslator.FoundKeywordLetters | openddal-engine/src/main/java/com/openddal/jdbc/JdbcConnection.java:260-276 | where fn, oj or params is found, every character it covers is a letter of those keywords in some case |
| EscapeTranslator.Keyword | openddal-engine/src/main/java/com/openddal/jdbc/JdbcConnection.java:259-276 | the table blanks 0, 2 or 6 characters, and the blanked characters lie inside the text |
| EscapeTranslator.Blanked | openddal-engine/src/main/java/com/openddal/jdbc/JdbcConnection.java:277-279 | the blanking loop sets exactly the n characters from start to spaces and keeps all others |
| EscapeTranslator.OpenEscape | openddal-engine/src/main/java/com/openddal/jdbc/JdbcConnection.java:206-216 | a `{` iteration advances the cursor, keeps the level non-negative and leaves a copy; it can only fail with a syntax error |
| EscapeTranslator.EscapeBody | openddal-engine/src/main/java/com/openddal/jdbc/JdbcConnection.java:217-280 | the escape body moves the cursor past its start and always leaves a copy of the text |
| EscapeTranslator.NativeLiteral | openddal-engine/src/main/java/com/openddal/jdbc/JdbcConnection.java:217-237 | the digit branch writes `{` just before the digit and nothing else, keeps the level it is given, and moves the cursor past the digit but not past the end |
| EscapeTranslator.TokenEnd | openddal-engine/src/main/java/com/openddal/jdbc/JdbcConnection.java:238-258 | the token scan stops at a space character; without a `?` prefix, no space occurs between start and the stop |
| EscapeTranslator.KeywordEscape | openddal-engine/src/main/java/com/openddal/jdbc/JdbcConnection.java:255-280 | the keyword branch raises the level by one; a removed keyword is blanked and the cursor resumes at start + n + 1; a kept keyword leaves the buffer as it is |
| EscapeTranslator.Step | openddal-engine/src/main/java/com/openddal/jdbc/JdbcConnection.java:197-291 | one iteration advances the cursor, keeps the loop invariant, allocates the copy only at a `{`, and fails only with a syntax error |
| EscapeTranslator.Scan | openddal-engine/src/main/java/com/openddal/jdbc/JdbcConnection.java:197-299 | a successful scan returns text of the input's length; it is the input itself unless rebuilt, and it is rebuilt only if a copy exists or a `{` lies ahead |
| EscapeTranslator.Continue | openddal-engine/src/main/java/com/openddal/jdbc/JdbcConnection.java:197-292 | the same guarantees as Scan, from a cursor inside the text |
| EscapeTranslator.Advanced | openddal-engine/src/main/java/com/openddal/jdbc/JdbcConnection.java:197 | after a successful iteration, the scan continues from the next state |
| EscapeTranslator.Stopped | openddal-engine/src/main/java/com/openddal/jdbc/JdbcConnection.java:197-292 | a failing iteration is the scan's failure |
| EscapeTranslator.Translate | openddal-engine/src/main/java/com/openddal/jdbc/JdbcConnection.java:184-300 | null fails with an invalid-value error and nothing else does; with escapes off or no `{`, the input comes back unchanged; output keeps the length; a rebuilt output implies escapes on and a `{` in the input |
| JdbcConnection.TranslateGetEnd | openddal-engine/src/main/java/com/openddal/jdbc/JdbcConnection.java:104-163 | the imperative translateGetEnd, including its line-comment loops, returns exactly SpanEnd |
| JdbcConnection.SkipRunIn | openddal-engine/src/main/java/com/openddal/jdbc/JdbcConnection.java:212-215 | the isSpaceChar loop with checkRunOver over the array returns exactly SkipRun |
| JdbcConnection.ScanLiteral | openddal-engine/src/main/java/com/openddal/jdbc/JdbcConnection.java:219-235 | the `while (true)` loop of the digit branch returns exactly LiteralEnd |
| JdbcConnection.TranslateLiteral | openddal-engine/src/main/java/com/openddal/jdbc/JdbcConnection.java:217-237 | writes `{` at start - 1 and nothing else, then returns LiteralEnd of the updated array |
| JdbcConnection.TranslateEscape | openddal-engine/src/main/java/com/openddal/jdbc/JdbcConnection.java:206-216 | blanking the brace in place and skipping the spaces computes exactly OpenEscape, with the array holding the new buffer |
| JdbcConnection.TranslateEscapeBody | openddal-engine/src/main/java/com/openddal/jdbc/JdbcConnection.java:217-280 | the digit-or-keyword choice in place computes exactly EscapeBody, including the level |
| JdbcConnection.TranslateKeyword | openddal-engine/src/main/java/com/openddal/jdbc/JdbcConnection.java:255-280 | the token scan, the keyword table and the blanking loop in place compute exactly KeywordEscape |
| JdbcConnection.ScanToken | openddal-engine/src/main/java/com/openddal/jdbc/JdbcConnection.java:238-258 | the optional `? =` prefix and the token loop return exactly TokenEnd |
| JdbcConnection.ReturnAssign | openddal-engine/src/main/java/com/openddal/jdbc/JdbcConnection.java:238-254 | the `{?` branch returns exactly AfterReturnAssign, including the error with expected `=` |
| JdbcConnection.BlankKeyword | openddal-engine/src/main/java/com/openddal/jdbc/JdbcConnection.java:277-279 | the counted blanking loop leaves the cursor at start + n and the array equal to Blanked |
| JdbcConnection.TranslateStep | openddal-engine/src/main/java/com/openddal/jdbc/JdbcConnection.java:198-291 | one loop body over the nullable array computes exactly Step; it allocates a fresh array only when none existed |
| JdbcConnection.ToCharArray | openddal-engine/src/main/java/com/openddal/jdbc/JdbcConnection.java:209 | toCharArray gives a fresh array holding the text |
| JdbcConnection.OpenBrace | openddal-engine/src/main/java/com/openddal/jdbc/JdbcConnection.java:206-280 | `case '{'`, with the lazy copy, computes exactly OpenEscape and leaves a non-null array |
| JdbcConnection.TranslateSql | openddal-engine/src/main/java/com/openddal/jdbc/JdbcConnection.java:184-300 | the method returns exactly Translate, and so every property proved about Translate holds for it |
| JdbcConnection.TranslateLoop | openddal-engine/src/main/java/com/openddal/jdbc/JdbcConnection.java:194-299 | the `for` loop and the checks after it return exactly Scan from the initial state |
| TranslatorProperties.RemovedKeywordLetters | openddal-engine/src/main/java/com/openddal/jdbc/JdbcConnection.java:259-279 | every character the table blanks is a letter of fn, oj or params |
| TranslatorProperties.KeywordEscapeSound | openddal-engine/src/main/java/com/openddal/jdbc/JdbcConnection.java:255-280 | the keyword branch keeps the rewrite invariant: every character is still the input's or an allowed rewrite of it, and nothing from the new cursor on has changed |
| TranslatorProperties.NativeLiteralSound | openddal-engine/src/main/java/com/openddal/jdbc/JdbcConnection.java:217-218 | the digit branch keeps the rewrite invariant: its `{` lands on the blanked brace or on a space character |
| TranslatorProperties.OpenEscapeSound | openddal-engine/src/main/java/com/openddal/jdbc/JdbcConnection.java:206-280 | a `{` iteration keeps every character an allowed rewrite of the input and leaves the text from the cursor on untouched |
| TranslatorProperties.StepSound | openddal-engine/src/main/java/com/openddal/jdbc/JdbcConnection.java:197-291 | every iteration keeps that invariant |
| TranslatorProperties.ScanRewrites | openddal-engine/src/main/java/com/openddal/jdbc/JdbcConnection.java:197-299 | a successful scan returns a text in which every character is the input's or an allowed rewrite of it |
| TranslatorProperties.TranslateRewrites | openddal-engine/src/main/java/com/openddal/jdbc/JdbcConnection.java:184-299 | the output has the input's length; each position holds the input's character, a space over a brace or keyword letter, or `{` over a space character |
| TranslatorProperties.ReachesSound | openddal-engine/src/main/java/com/openddal/jdbc/JdbcConnection.java:197-292 | states reached by the loop keep the invariant, the cursor only grows, and the scan's outcome stays the same along the way |
| TranslatorProperties.ReachedAgrees | openddal-engine/src/main/java/com/openddal/jdbc/JdbcConnection.java:197-292 | at every reached state the buffer still holds the input from the cursor on |
| TranslatorProperties.Visited | openddal-engine/src/main/java/com/openddal/jdbc/JdbcConnection.java:196-211 | at every reached state the level is >= 0, and a positive level implies the copy exists |
| TranslatorProperties.StepSettles | openddal-engine/src/main/java/com/openddal/jdbc/JdbcConnection.java:197-291 | an iteration never writes below its cursor |
| TranslatorProperties.ScanSettles | openddal-engine/src/main/java/com/openddal/jdbc/JdbcConnection.java:197-299 | the output holds, below any reached cursor, what the buffer held there |
| TranslatorProperties.Scanned | openddal-engine/src/main/java/com/openddal/jdbc/JdbcConnection.java:191-197 | with escapes on and a `{` in the text, the result is the scan from the initial state |
| TranslatorProperties.SpanKept | openddal-engine/src/main/java/com/openddal/jdbc/JdbcConnection.java:200-205 | a quoted or commented span is jumped over whole, with level and buffer unchanged, so braces in it count for nothing; the output equals the input along it |
| TranslatorProperties.PlainRun | openddal-engine/src/main/java/com/openddal/jdbc/JdbcConnection.java:290 | a run of ordinary characters changes neither the level nor the buffer |
| TranslatorProperties.StepFailureIsFinal | openddal-engine/src/main/java/com/openddal/jdbc/JdbcConnection.java:197-292 | any failing iteration is what translateSQL throws |
| TranslatorProperties.UnterminatedSpan | openddal-engine/src/main/java/com/openddal/jdbc/JdbcConnection.java:108-137 | an unterminated quote, `$$` block or block comment is a syntax error at its opening index |
| TranslatorProperties.TrailingSlashOrDash | openddal-engine/src/main/java/com/openddal/jdbc/JdbcConnection.java:131-150 | a `/` or `-` reached as the last character is a syntax error at len |
| TranslatorProperties.UnmatchedClose | openddal-engine/src/main/java/com/openddal/jdbc/JdbcConnection.java:281-284 | a `}` reached at level 0 is a syntax error at the brace |
| TranslatorProperties.CloseBrace | openddal-engine/src/main/java/com/openddal/jdbc/JdbcConnection.java:281-286 | a `}` reached while an escape is open lowers the level by one and becomes a space, in the buffer and in the output |
| TranslatorProperties.BraceRunsOver | openddal-engine/src/main/java/com/openddal/jdbc/JdbcConnection.java:212-215 | a `{` followed only by space characters fails at len, from the space skip's checkRunOver, not at len - 1 |
| TranslatorProperties.UnclosedEscape | openddal-engine/src/main/java/com/openddal/jdbc/JdbcConnection.java:293-295 | a non-zero level at the end of the loop is a syntax error at len - 1 |
| TranslatorProperties.ReachesNoBrace | openddal-engine/src/main/java/com/openddal/jdbc/JdbcConnection.java:206-207 | with no `{` ahead of the cursor, the level never rises |
| TranslatorProperties.SkipRunTo | openddal-engine/src/main/java/com/openddal/jdbc/JdbcConnection.java:212-215 | the skip loop stops exactly at the first character outside the run |
| TranslatorProperties.BraceBody | openddal-engine/src/main/java/com/openddal/jdbc/JdbcConnection.java:206-217 | at a `{` followed by spaces up to start, the iteration continues with the escape body at start, on a buffer that agrees with the input after the brace |
| TranslatorProperties.MissingAssign | openddal-engine/src/main/java/com/openddal/jdbc/JdbcConnection.java:238-247 | `{`, spaces, `?`, spaces and then anything but `=` is a syntax error at that character, with `=` expected |
| TranslatorProperties.MissingAssignStep | openddal-engine/src/main/java/com/openddal/jdbc/JdbcConnection.java:238-247 | the iteration at such a `{` fails with that error |
| TranslatorProperties.ReturnAssignFails | openddal-engine/src/main/java/com/openddal/jdbc/JdbcConnection.java:238-247 | past `?` and spaces, a character other than `=` is where the token scan fails |
| TranslatorProperties.TokenRunsOver | openddal-engine/src/main/java/com/openddal/jdbc/JdbcConnection.java:255-258 | a token after `{` with no space after it before the end is a syntax error at len |
| TranslatorProperties.TokenRunsOverStep | openddal-engine/src/main/java/com/openddal/jdbc/JdbcConnection.java:255-258 | the iteration at such a `{` fails at len |
| TranslatorProperties.EscapeLiteral | openddal-engine/src/main/java/com/openddal/jdbc/JdbcConnection.java:217-237 | digit branch: the brace becomes a space, `{` goes before the digit, the level is unchanged, and the cursor resumes after a kept `}`, the first `}` the literal loop visits from the digit on |
| TranslatorProperties.EscapeRemovesKeyword | openddal-engine/src/main/java/com/openddal/jdbc/JdbcConnection.java:259-280 | fn, oj, params or an unknown token: the brace and the n keyword characters (0 for an unknown token) are blanked, the level rises by one, and the cursor resumes at start + n + 1 |
| TranslatorProperties.EscapeKeepsKeyword | openddal-engine/src/main/java/com/openddal/jdbc/JdbcConnection.java:262-273 | escape, call, ts, t or d: only the brace is blanked and the level rises by one |
| TranslatorProperties.KeptResume | openddal-engine/src/main/java/com/openddal/jdbc/JdbcConnection.java:255-273 | after a kept keyword the cursor resumes one past the space character that ends the token |
| TranslatorProperties.KeptStep | openddal-engine/src/main/java/com/openddal/jdbc/JdbcConnection.java:255-273 | the kept-keyword iteration resumes after the token the buffer scan finds, and keeps the buffer |
| TranslatorProperties.KeptToken | openddal-engine/src/main/java/com/openddal/jdbc/JdbcConnection.java:255-273 | a kept keyword's branch resumes one past the token's end |
| TranslatorProperties.TokenOfInput | openddal-engine/src/main/java/com/openddal/jdbc/JdbcConnection.java:255-258 | the token the buffer scan skips is a token of the input, ended by a space character |
| TranslatorProperties.KeywordBlanksTwo | openddal-engine/src/main/java/com/openddal/jdbc/JdbcConnection.java:259-276 | two characters are blanked exactly when the token starts with fn or oj |
| TranslatorProperties.KeywordBlanksSix | openddal-engine/src/main/java/com/openddal/jdbc/JdbcConnection.java:259-276 | six characters are blanked exactly when the token starts with params |
| TranslatorProperties.KeywordKeeps | openddal-engine/src/main/java/com/openddal/jdbc/JdbcConnection.java:259-276 | the token is kept exactly when it starts with escape, call, t or d |
| TranslatorProperties.ReturnAssignNotBlanked | openddal-engine/src/main/java/com/openddal/jdbc/JdbcConnection.java:238-260 | at a `?` the table blanks nothing, so `?` and `=` are never blanked |
| TranslatorProperties.RetranslateIdentity | openddal-engine/src/main/java/com/openddal/jdbc/JdbcConnection.java:191-193 | an output without `{` translates to itself, not rebuilt |
| TranslationExamples.FunctionOpens | openddal-engine/src/main/java/com/openddal/jdbc/JdbcConnection.java:206-280 | the first iteration over `{fn f(x)}` blanks the brace and `fn` and resumes at index 4 |
| TranslationExamples.FunctionCloses | openddal-engine/src/main/java/com/openddal/jdbc/JdbcConnection.java:281-299 | the rest of that scan passes over `f(x)` and blanks the `}` |
| TranslationExamples.FunctionEscape | openddal-engine/src/main/java/com/openddal/jdbc/JdbcConnection.java:184-300 | `{fn f(x)}` translates to `    f(x) `, rebuilt |
| TranslationExamples.ReturnAssignOpens | openddal-engine/src/main/java/com/openddal/jdbc/JdbcConnection.java:238-280 | the first iteration over `{?=call p}` blanks only the brace and resumes at the `=` |
| TranslationExamples.ReturnAssignCloses | openddal-engine/src/main/java/com/openddal/jdbc/JdbcConnection.java:281-299 | the rest of that scan passes over `=call p` and blanks the `}` |
| TranslationExamples.ReturnAssignEscape | openddal-engine/src/main/java/com/openddal/jdbc/JdbcConnection.java:184-300 | `{?=call p}` translates to ` ?=call p `, rebuilt |
| TranslationExamples.PrefixBlanks | openddal-engine/src/main/java/com/openddal/jdbc/JdbcConnection.java:260-261 | `{fnord x}` matches fn and loses two characters |
| TranslationExamples.PrefixKeeps | openddal-engine/src/main/java/com/openddal/jdbc/JdbcConnection.java:270-271 | `{table x}` matches t and keeps the token |
| TranslationExamples.UpperCaseBlanks | openddal-engine/src/main/java/com/openddal/jdbc/JdbcConnection.java:274-275 | `{PARAMS}` matches params, ignoring case, and loses six characters |
| TranslationExamples.QuotedBrace | openddal-engine/src/main/java/com/openddal/jdbc/JdbcConnection.java:200-205 | a `{` inside a string literal opens nothing, and the input comes back without a copy |
| TranslationExamples.LiteralSkipsQuotedBrace | openddal-engine/src/main/java/com/openddal/jdbc/JdbcConnection.java:219-235 | in a native literal, the `}` inside a quoted string is jumped over and the scan stops at the first `}` after the string |
| TranslationExamples.BraceAtEnd | openddal-engine/src/main/java/com/openddal/jdbc/JdbcConnection.java:206-215 | `SELECT 1 {` fails with a syntax error at 10, the end of the input |

## Left out

- Strings are sequences of Unicode scalar values, not UTF-16 code units.
  Offsets therefore differ from Java's after a character outside the Basic
  Multilingual Plane, and such a character is a single `char` here.
- SqlText.IsSpaceChar is a fixed table of the Zs, Zl and Zp characters. It
  does not follow the Unicode version of a particular JDK.
- SqlText.MatchesIgnoringCase covers the case folds that make a character
  equal to a lower-case ASCII letter under `regionMatches`: ASCII capitals,
  long s, dotted and dotless i, and the Kelvin sign. No escape keyword
  contains `i` or `k`, so only the ASCII capitals and long s can affect a
  translation. Other locale or Unicode case rules of `regionMatches` are not
  modelled.
- EscapeTranslator.SpanEnd requires one of the six span characters. The
  `default: throwInternalError` branch of `translateGetEnd` cannot be reached
  from its callers, so it is not modelled.
- The exception objects (`DbException`, its message text and its error
  codes) become an `Error` value: an invalid-value error, or a syntax error
  with an offset and an optional expected token.
- JdbcConnection.TranslateSql returns the original string when nothing was
  rewritten, and a new string otherwise. Java reference identity is modelled
  by the `rebuilt` flag.
- The one-argument overload `translateSQL(String)` (JdbcConnection.java
  lines 172-174) is `Translate(sql, true)` and has no member of its own.
- Java's 32-bit `int` cursor is modelled as an unbounded `nat`. Every cursor
  stays at most one past the text's length, so no overflow can occur for a
  Java string.
- The rest of JdbcConnection is not part of this model:
  - connection and session lifecycle;
  - statement factories;
  - LOB creation;
  - client info;
  - wrappers;
  - tracing and `synchronized` blocks;
  - `checkTypeConcurrency`, `checkHoldability` and `checkMap`.

  These delegate to a session and to classes that are not part of this
  model.

=== FILE: escape_translator.dfy ===
/**
 * Pure specification of JdbcConnection.translateSQL: the JDBC escape-syntax
 * translator. A Scanner is the state of the main `for` loop at the top of an
 * iteration (the cursor `i` after the loop's own `i++`, the brace nesting
 * `level`, and the lazily copied `char[] chars`, None while it is still null);
 * Step is one iteration, Scan the whole loop and the final checks.
 */
module EscapeTranslator {
  import opened Results
  import opened SqlText

  /** What the translator throws: the null-argument error, or a syntax error at an offset. */
  datatype Error =
    | InvalidValue
    | SyntaxError(offset: int, expected: Option<string>)

  /**
   * The returned SQL text; `rebuilt` is false when the very same string was
   * returned and true when a new string was built from the working buffer.
   */
  datatype Translated = Translated(text: string, rebuilt: bool)

  datatype Scanner = Scanner(i: nat, level: int, chars: Option<seq<char>>)

  /** The keyword table's verdict: keep the token, or blank `n` characters from its start. */
  datatype Dispatch = Keep | Remove(n: nat)

  /** The invariant of the loop state: a copied buffer has the input's length, and an open brace implies a copy. */
  predicate Inv(sql: string, st: Scanner)
  {
    && 0 <= st.level
    && (st.chars.Some? ==> |st.chars.value| == |sql|)
    && (st.level > 0 ==> st.chars.Some?)
  }

  /** The characters the scan currently sees: the copy once it exists, the input before. */
  function Buffer(sql: string, st: Scanner): (b: seq<char>)
    requires Inv(sql, st)
    ensures |b| == |sql|
  {
    if st.chars.Some? then st.chars.value else sql
  }

  /** checkRunOver: a cursor at or past the end is a syntax error at that cursor. */
  function CheckRunOver(i: int, len: nat): (r: Outcome<Error>)
    ensures r.Fail? <==> len <= i
    ensures r.Fail? ==> r.error.SyntaxError? && r.error.offset == i && r.error.expected.None?
  {
    if i >= len then Fail(SyntaxError(i, None)) else Pass
  }

  /** The characters that make translateGetEnd skip a quoted or commented span. */
  predicate IsQuoteOrComment(c: char)
  {
    c == '\'' || c == '"' || c == '/' || c == '-'
  }

  predicate IsSpanStart(c: char)
  {
    IsQuoteOrComment(c) || c == '$'
  }

  /** A `$$` opens a dollar-quoted block only at the start of the text or after a character <= ' '. */
  predicate DollarOpens(sql: string, i: nat)
    requires i < |sql|
  {
    i < |sql| - 1 && sql[i + 1] == '$' && (i == 0 || sql[i - 1] <= ' ')
  }

  predicate IsLineBreak(c: char)
  {
    c == '\r' || c == '\n'
  }

  /** The end of a line comment whose text starts at `i`: the first CR or LF, or the end of the input. */
  function LineEnd(sql: string, i: nat): (r: nat)
    requires i <= |sql|
    ensures i <= r <= |sql|
    ensures r < |sql| ==> IsLineBreak(sql[r])
    ensures forall k | i <= k < r :: !IsLineBreak(sql[k])
    decreases |sql| - i
  {
    if i == |sql| || IsLineBreak(sql[i]) then i else LineEnd(sql, i + 1)
  }

  predicate OpensBlockComment(sql: string, i: nat, c: char)
  {
    i + 1 < |sql| && c == '/' && sql[i + 1] == '*'
  }

  predicate OpensLineComment(sql: string, i: nat, c: char)
  {
    i + 1 < |sql| && (c == '/' || c == '-') && sql[i + 1] == c
  }

  /**
   * translateGetEnd(sql, i, c): the index of the last character of the span
   * that `c` opens at `i` (the closing quote, the second character of the
   * closing `$$` or `*\/`, the line break or the input's length that ends a
   * line comment), or `i` when `c` opens no span there.
   */
  function SpanEnd(sql: string, i: nat, c: char): (r: Result<nat, Error>)
    requires i < |sql| && IsSpanStart(c)
    ensures r.Success? ==> i <= r.value <= |sql|
    ensures r.Success? && r.value == |sql| ==> OpensLineComment(sql, i, c)
    // every failure is a syntax error at the opening index, or at the end for a trailing '/' or '-'
    ensures r.Failure? ==> r.error == SyntaxError(i, None)
                           || ((c == '/' || c == '-') && i + 1 == |sql| && r.error == SyntaxError(|sql|, None))
    ensures (c == '/' || c == '-') && i + 1 == |sql| ==> r == Failure(SyntaxError(|sql|, None))
  {
    var len := |sql|;
    if c == '$' then
      if DollarOpens(sql, i) then
        var j := IndexOf2(sql, '$', '$', i + 2);
        if j < 0 then Failure(SyntaxError(i, None)) else Success(j + 1)
      else Success(i)
    else if c == '\'' || c == '"' then
      var j := IndexOf(sql, c, i + 1);
      if j < 0 then Failure(SyntaxError(i, None)) else Success(j)
    else if c == '/' then
      :- CheckRunOver(i + 1, len);
      if sql[i + 1] == '*' then
        var j := IndexOf2(sql, '*', '/', i + 2);
        if j < 0 then Failure(SyntaxError(i, None)) else Success(j + 1)
      else if sql[i + 1] == '/' then Success(LineEnd(sql, i + 2))
      else Success(i)
    else
      :- CheckRunOver(i + 1, len);
      if sql[i + 1] == '-' then Success(LineEnd(sql, i + 2)) else Success(i)
  }

  /** A quote spans to the first matching quote after it; with none, translateGetEnd throws at the quote. */
  lemma QuoteSpan(sql: string, i: nat, c: char)
    requires i < |sql| && (c == '\'' || c == '"')
    ensures SpanEnd(sql, i, c).Failure? <==> forall k | i < k < |sql| :: sql[k] != c
    ensures SpanEnd(sql, i, c).Failure? ==> SpanEnd(sql, i, c).error == SyntaxError(i, None)
    ensures SpanEnd(sql, i, c).Success? ==>
              var e := SpanEnd(sql, i, c).value;
              i < e < |sql| && sql[e] == c && forall k | i < k < e :: sql[k] != c
  {
  }

  /**
   * `$$` opens a dollar-quoted block only where DollarOpens holds; the block
   * ends with the second character of the first `$$` at or after i + 2.
   * Any other `$` is inert.
   */
  lemma DollarSpan(sql: string, i: nat)
    requires i < |sql| && sql[i] == '$'
    ensures !DollarOpens(sql, i) ==> SpanEnd(sql, i, '$') == Success(i)
    ensures DollarOpens(sql, i) ==>
              (SpanEnd(sql, i, '$').Failure? <==> forall k | i + 2 <= k :: !PairAt(sql, k, '$', '$'))
    ensures DollarOpens(sql, i) && SpanEnd(sql, i, '$').Success? ==>
              var e := SpanEnd(sql, i, '$').value;
              i + 3 <= e && PairAt(sql, e - 1, '$', '$') && forall k | i + 2 <= k < e - 1 :: !PairAt(sql, k, '$', '$')
  {
  }

  /** A block comment ends with the `/` of the first `*\/` at or after i + 2. */
  lemma BlockCommentSpan(sql: string, i: nat)
    requires i < |sql| && OpensBlockComment(sql, i, '/')
    ensures SpanEnd(sql, i, '/').Failure? <==> forall k | i + 2 <= k :: !PairAt(sql, k, '*', '/')
    ensures SpanEnd(sql, i, '/').Success? ==>
              var e := SpanEnd(sql, i, '/').value;
              i + 3 <= e && PairAt(sql, e - 1, '*', '/') && forall k | i + 2 <= k < e - 1 :: !PairAt(sql, k, '*', '/')
  {
  }

  /** A line comment (`//` or `--`) never fails: it ends at the first line break, or at the end of the input. */
  lemma LineCommentSpan(sql: string, i: nat, c: char)
    requires i < |sql| && OpensLineComment(sql, i, c)
    ensures SpanEnd(sql, i, c).Success?
    ensures var e := SpanEnd(sql, i, c).value;
            i + 2 <= e && (e == |sql| || IsLineBreak(sql[e])) && forall k | i + 2 <= k < e :: !IsLineBreak(sql[k])
  {
  }

  /** A `/` or `-` that opens no comment is inert, except as the last character, where it is an error. */
  lemma InertSpan(sql: string, i: nat, c: char)
    requires i < |sql| && (c == '/' || c == '-') && !OpensBlockComment(sql, i, c) && !OpensLineComment(sql, i, c)
    ensures SpanEnd(sql, i, c) == if i + 1 == |sql| then Failure(SyntaxError(|sql|, None)) else Success(i)
  {
  }

  /**
   * The skip loops of the escape branch: advance while the character's
   * space-ness equals `space`, failing once the cursor reaches the end. With
   * `space` true it skips a run of space characters, with `space` false it
   * skips a token.
   */
  function SkipRun(buf: seq<char>, i: nat, space: bool): (r: Result<nat, Error>)
    requires i < |buf|
    ensures r.Success? ==>
              i <= r.value < |buf| && IsSpaceChar(buf[r.value]) != space
              && forall k | i <= k < r.value :: IsSpaceChar(buf[k]) == space
    ensures r.Failure? ==>
              r.error == SyntaxError(|buf|, None)
              && forall k | i <= k < |buf| :: IsSpaceChar(buf[k]) == space
    decreases |buf| - i
  {
    if IsSpaceChar(buf[i]) != space then Success(i)
    else
      :- CheckRunOver(i + 1, |buf|);
      SkipRun(buf, i + 1, space)
  }

  /**
   * The return-assignment branch (an escape opening with `?`): past the `?`
   * at `q`, skip spaces, demand `=`, skip the spaces after it; the result is
   * where the token scan starts.
   */
  function AfterReturnAssign(sql: string, buf: seq<char>, q: nat): (r: Result<nat, Error>)
    requires q < |sql| && |buf| == |sql|
    ensures r.Success? ==> q + 2 <= r.value < |sql| && !IsSpaceChar(buf[r.value])
    ensures r.Failure? ==> r.error.SyntaxError?
    ensures r.Failure? && r.error.expected.Some? ==>
              r.error.expected == Some("=")
              && q < r.error.offset < |sql| && sql[r.error.offset] != '='
              && !IsSpaceChar(buf[r.error.offset])
              && forall k | q < k < r.error.offset :: IsSpaceChar(buf[k])
  {
    var len := |sql|;
    :- CheckRunOver(q + 1, len);
    var eq :- SkipRun(buf, q + 1, true);
    if sql[eq] != '=' then Failure(SyntaxError(eq, Some("=")))
    else
      :- CheckRunOver(eq + 1, len);
      SkipRun(buf, eq + 1, true)
  }

  /**
   * The digit branch's inner `while (true)` loop: from `i`, skipping quoted
   * and commented spans (but not dollar quotes), find the next closing brace.
   */
  function LiteralEnd(sql: string, buf: seq<char>, i: nat): (r: Result<nat, Error>)
    requires |buf| == |sql|
    ensures r.Success? ==> i <= r.value < |sql| && buf[r.value] == '}'
    ensures r.Failure? ==> r.error.SyntaxError? && r.error.expected.None? && i <= r.error.offset
    decreases |sql| - i
  {
    var len := |sql|;
    :- CheckRunOver(i, len);
    if buf[i] == '}' then Success(i)
    else if IsQuoteOrComment(buf[i]) then
      var e :- SpanEnd(sql, i, buf[i]);
      LiteralEnd(sql, buf, e + 1)
    else LiteralEnd(sql, buf, i + 1)
  }

  /**
   * Whether the native-literal loop, started at `i`, reaches cursor `s`: from
   * a character that is not `}` it moves one past the span a quote or comment
   * opens, or one character on otherwise.
   */
  predicate LiteralVisits(sql: string, buf: seq<char>, i: nat, s: nat)
    requires |buf| == |sql|
    decreases |sql| + 1 - i
  {
    || i == s
    || (&& i < s && i < |sql| && buf[i] != '}'
        && if IsQuoteOrComment(buf[i]) then
             SpanEnd(sql, i, buf[i]).Success? && LiteralVisits(sql, buf, SpanEnd(sql, i, buf[i]).value + 1, s)
           else LiteralVisits(sql, buf, i + 1, s))
  }

  /**
   * The native-literal scan stops at the first `}` it reaches: the loop
   * visits the stop, and no cursor it visits before the stop holds `}`.
   */
  lemma {:induction false} LiteralEndFirst(sql: string, buf: seq<char>, i: nat)
    requires |buf| == |sql| && LiteralEnd(sql, buf, i).Success?
    ensures LiteralVisits(sql, buf, i, LiteralEnd(sql, buf, i).value)
    ensures forall s | i <= s < LiteralEnd(sql, buf, i).value && LiteralVisits(sql, buf, i, s) :: buf[s] != '}'
    decreases |sql| - i
  {
    if buf[i] != '}' {
      var next := if IsQuoteOrComment(buf[i]) then SpanEnd(sql, i, buf[i]).value + 1 else i + 1;
      assert LiteralEnd(sql, buf, i) == LiteralEnd(sql, buf, next);
      LiteralEndFirst(sql, buf, next);
      forall s | i < s < LiteralEnd(sql, buf, i).value && LiteralVisits(sql, buf, i, s)
        ensures buf[s] != '}'
      {
        assert LiteralVisits(sql, buf, next, s);
        assert next <= s;
      }
    }
  }

  /** Conversely, with no `}` and no quote or comment start before a `}` at `j`, the scan stops at `j`. */
  lemma {:induction false} LiteralEndPlain(sql: string, buf: seq<char>, i: nat, j: nat)
    requires |buf| == |sql| && i <= j < |sql| && buf[j] == '}'
    requires forall k | i <= k < j :: buf[k] != '}' && !IsQuoteOrComment(buf[k])
    ensures LiteralEnd(sql, buf, i) == Success(j)
    decreases j - i
  {
    if i < j {
      LiteralEndPlain(sql, buf, i + 1, j);
    }
  }

  /** The letters a removed keyword (`fn`, `oj`, `params`) can consist of, in any case. */
  predicate IsKeywordLetter(c: char)
  {
    || MatchesIgnoringCase(c, 'f') || MatchesIgnoringCase(c, 'n')
    || MatchesIgnoringCase(c, 'o') || MatchesIgnoringCase(c, 'j')
    || MatchesIgnoringCase(c, 'p') || MatchesIgnoringCase(c, 'a')
    || MatchesIgnoringCase(c, 'r') || MatchesIgnoringCase(c, 'm')
    || MatchesIgnoringCase(c, 's')
  }

  lemma FoundKeywordLetters(sql: string, start: nat, kw: string)
    requires kw == "fn" || kw == "oj" || kw == "params"
    requires Found(sql, start, kw)
    ensures forall k | start <= k < start + |kw| :: IsKeywordLetter(sql[k])
  {
    FoundMatches(sql, start, kw);
    forall k | start <= k < start + |kw|
      ensures IsKeywordLetter(sql[k])
    {
      assert MatchesIgnoringCase(sql[start + (k - start)], kw[k - start]);
    }
  }

  /**
   * The keyword table: `fn, escape, call, oj, ts, t, d, params` tried in this
   * order as case-insensitive prefixes at `start`. `fn` and `oj` blank two
   * characters, `params` six; the other five keep the token; anything else
   * blanks nothing.
   */
  function Keyword(sql: string, start: nat): (r: Dispatch)
    ensures r.Remove? ==> r.n == 0 || r.n == 2 || r.n == 6
    ensures r.Remove? && r.n > 0 ==> start + r.n <= |sql|
  {
    if Found(sql, start, "fn") then Remove(2)
    else if Found(sql, start, "escape") then Keep
    else if Found(sql, start, "call") then Keep
    else if Found(sql, start, "oj") then Remove(2)
    else if Found(sql, start, "ts") then Keep
    else if Found(sql, start, "t") then Keep
    else if Found(sql, start, "d") then Keep
    else if Found(sql, start, "params") then Remove(6)
    else Remove(0)
  }

  /** `buf` with the `n` characters from `start` overwritten by spaces. */
  function Blanked(buf: seq<char>, start: nat, n: nat): (r: seq<char>)
    requires start + n <= |buf|
    ensures |r| == |buf|
    ensures forall k | 0 <= k < |buf| :: r[k] == if start <= k < start + n then ' ' else buf[k]
  {
    seq(|buf|, k requires 0 <= k < |buf| => if start <= k < start + n then ' ' else buf[k])
  }

  /**
   * The `case '{'` branch at cursor `st.i`: copy the input if not yet copied,
   * blank the brace, skip the spaces after it to `start`, then take the
   * digit-literal branch or the keyword branch.
   */
  function OpenEscape(sql: string, st: Scanner): (r: Result<Scanner, Error>)
    requires Inv(sql, st) && st.i < |sql|
    ensures r.Success? ==> Inv(sql, r.value) && st.i < r.value.i <= |sql| + 1 && r.value.chars.Some?
    ensures r.Failure? ==> r.error.SyntaxError?
  {
    var chars := Buffer(sql, st)[st.i := ' '];
    var start :- SkipRun(chars, st.i, true);
    EscapeBody(sql, st.level, chars, start)
  }

  /** What follows the spaces after `{`: a native literal when a digit starts it, an escape keyword otherwise. */
  function EscapeBody(sql: string, level: int, chars: seq<char>, start: nat): (r: Result<Scanner, Error>)
    requires 0 < start < |sql| && |chars| == |sql| && 0 <= level
    ensures r.Success? ==> Inv(sql, r.value) && start < r.value.i <= |sql| + 1 && r.value.chars.Some?
    ensures r.Failure? ==> r.error.SyntaxError?
  {
    if IsDigit(chars[start]) then NativeLiteral(sql, level, chars, start)
    else KeywordEscape(sql, level, chars, start)
  }

  /**
   * The digit branch: put `{` back just before the digit, find the closing
   * `}` (which stays), and leave the nesting level as it was before the `{`.
   */
  function NativeLiteral(sql: string, level: int, chars: seq<char>, start: nat): (r: Result<Scanner, Error>)
    requires 0 < start < |sql| && |chars| == |sql| && 0 <= level
    ensures r.Success? ==> start < r.value.i <= |sql| && r.value.level == level
    ensures r.Success? ==> r.value.chars == Some(chars[start - 1 := '{'])
    ensures r.Failure? ==> r.error.SyntaxError?
  {
    var literal := chars[start - 1 := '{'];
    var close :- LiteralEnd(sql, literal, start);
    Success(Scanner(close + 1, level, Some(literal)))
  }

  /**
   * Where the escape's first token ends: past an optional `? =` prefix, the
   * first space character after the token.
   */
  function TokenEnd(sql: string, chars: seq<char>, start: nat): (r: Result<nat, Error>)
    requires start < |sql| && |chars| == |sql|
    ensures r.Success? ==> start <= r.value < |sql| && IsSpaceChar(chars[r.value])
    ensures r.Success? && chars[start] != '?' ==> forall k | start <= k < r.value :: !IsSpaceChar(chars[k])
    ensures r.Failure? ==> r.error.SyntaxError?
  {
    var tokenAt :- if chars[start] == '?' then AfterReturnAssign(sql, chars, start) else Success(start);
    SkipRun(chars, tokenAt, false)
  }

  /**
   * The keyword branch: past an optional `? =` prefix, scan the token up to
   * the next space character, then apply the keyword table to the text at
   * `start`. The cursor resumes after the token's following space for a kept
   * keyword, and one past the blanked characters otherwise.
   */
  function KeywordEscape(sql: string, level: int, chars: seq<char>, start: nat): (r: Result<Scanner, Error>)
    requires start < |sql| && |chars| == |sql| && 0 <= level
    ensures r.Success? ==> start < r.value.i <= |sql| + 1 && r.value.level == level + 1 && r.value.chars.Some?
    ensures r.Success? && Keyword(sql, start).Remove? ==>
              r.value.i == start + Keyword(sql, start).n + 1
              && r.value.chars == Some(Blanked(chars, start, Keyword(sql, start).n))
    ensures r.Success? && Keyword(sql, start).Keep? ==> r.value.chars == Some(chars)
    ensures r.Failure? ==> r.error.SyntaxError?
  {
    var tokenEnd :- TokenEnd(sql, chars, start);
    match Keyword(sql, start)
    case Keep => Success(Scanner(tokenEnd + 1, level + 1, Some(chars)))
    case Remove(n) => Success(Scanner(start + n + 1, level + 1, Some(Blanked(chars, start, n))))
  }

  /** One iteration of the main `for` loop, from the cursor at its top to the cursor at the next top. */
  function Step(sql: string, st: Scanner): (r: Result<Scanner, Error>)
    requires Inv(sql, st) && st.i < |sql|
    ensures r.Success? ==> Inv(sql, r.value) && st.i < r.value.i <= |sql| + 1
    ensures r.Success? && r.value.chars.Some? ==> st.chars.Some? || sql[st.i] == '{'
    ensures r.Failure? ==> r.error.SyntaxError?
  {
    var c := sql[st.i];
    if IsSpanStart(c) then
      var e :- SpanEnd(sql, st.i, c);
      Success(st.(i := e + 1))
    else if c == '{' then
      OpenEscape(sql, st)
    else if c == '}' then
      if st.level - 1 < 0 then Failure(SyntaxError(st.i, None))
      else Success(Scanner(st.i + 1, st.level - 1, Some(st.chars.value[st.i := ' '])))
    else
      Success(st.(i := st.i + 1))
  }

  /** The rest of the `for` loop from `st`, then the final level check and the choice of result. */
  function Scan(sql: string, st: Scanner): (r: Result<Translated, Error>)
    requires Inv(sql, st)
    ensures r.Success? ==> |r.value.text| == |sql|
    ensures r.Success? && !r.value.rebuilt ==> r.value.text == sql
    ensures r.Success? && r.value.rebuilt ==> st.chars.Some? || exists k :: st.i <= k < |sql| && sql[k] == '{'
    ensures r.Failure? ==> r.error.SyntaxError?
    decreases |sql| - st.i, 1
  {
    if st.i < |sql| then Continue(sql, st)
    else if st.level != 0 then
      Failure(SyntaxError(|sql| - 1, None))
    else if st.chars.None? then
      Success(Translated(sql, false))
    else
      Success(Translated(st.chars.value, true))
  }

  /** One iteration from `st`, then the rest of the scan. */
  function Continue(sql: string, st: Scanner): (r: Result<Translated, Error>)
    requires Inv(sql, st) && st.i < |sql|
    ensures r.Success? ==> |r.value.text| == |sql|
    ensures r.Success? && !r.value.rebuilt ==> r.value.text == sql
    ensures r.Success? && r.value.rebuilt ==> st.chars.Some? || exists k :: st.i <= k < |sql| && sql[k] == '{'
    ensures r.Failure? ==> r.error.SyntaxError?
    decreases |sql| - st.i, 0
  {
    var next :- Step(sql, st);
    Scan(sql, next)
  }

  /** A successful iteration leaves the rest of the scan to the next state. */
  lemma Advanced(sql: string, st: Scanner, next: Scanner)
    requires Inv(sql, st) && st.i < |sql| && Step(sql, st) == Success(next)
    ensures Inv(sql, next) && st.i < next.i <= |sql| + 1
    ensures Scan(sql, st) == Scan(sql, next)
  {
  }

  /** A failing iteration ends the scan with its error. */
  lemma Stopped(sql: string, st: Scanner)
    requires Inv(sql, st) && st.i < |sql| && Step(sql, st).Failure?
    ensures Scan(sql, st) == Failure(Step(sql, st).error)
  {
  }

  function Start(): Scanner
  {
    Scanner(0, 0, None)
  }

  /** translateSQL(sql, escapeProcessing); `None` stands for a null `sql`. */
  function Translate(sql: Option<string>, escapeProcessing: bool): (r: Result<Translated, Error>)
    ensures r == Failure(InvalidValue) <==> sql.None?
    ensures sql.Some? && (!escapeProcessing || '{' !in sql.value) ==> r == Success(Translated(sql.value, false))
    ensures r.Success? ==> sql.Some? && |r.value.text| == |sql.value|
    ensures r.Success? && !r.value.rebuilt ==> r.value.text == sql.value
    ensures r.Success? && r.value.rebuilt ==> escapeProcessing && '{' in sql.value
  {
    if sql.None? then Failure(InvalidValue)
    else if !escapeProcessing then Success(Translated(sql.value, false))
    else if IndexOf(sql.value, '{', 0) < 0 then Success(Translated(sql.value, false))
    else Scan(sql.value, Start())
  }
}

=== FILE: jdbc_connection.dfy ===
/**
 * The translator as JdbcConnection runs it: a cursor driven through the SQL
 * text, a lazily allocated `char[]` overwritten in place, and the inner
 * `while` loops of the escape branch. Each method is proved equal to the
 * pure definition of the same step in EscapeTranslator.
 */
module JdbcConnection {
  import opened Results
  import opened SqlText
  import opened EscapeTranslator

  /** translateGetEnd: where the quoted or commented span opened by `c` at `i` ends. */
  method TranslateGetEnd(sql: string, i: nat, c: char) returns (r: Result<nat, Error>)
    requires i < |sql| && IsSpanStart(c)
    ensures r == SpanEnd(sql, i, c)
  {
    var len := |sql|;
    if c == '$' {
      if i < len - 1 && sql[i + 1] == '$' && (i == 0 || sql[i - 1] <= ' ') {
        var j := IndexOf2(sql, '$', '$', i + 2);
        if j < 0 {
          return Failure(SyntaxError(i, None));
        }
        return Success(j + 1);
      }
      return Success(i);
    } else if c == '\'' || c == '"' {
      var j := IndexOf(sql, c, i + 1);
      if j < 0 {
        return Failure(SyntaxError(i, None));
      }
      return Success(j);
    } else if c == '/' {
      :- CheckRunOver(i + 1, len);
      var k := i;
      if sql[i + 1] == '*' {
        // `/*`: jump to the `/` of the first `*/` after it
        var j := IndexOf2(sql, '*', '/', i + 2);
        if j < 0 {
          return Failure(SyntaxError(i, None));
        }
        k := j + 1;
      } else if sql[i + 1] == '/' {
        // `//`: run to the first line break or the end
        k := i + 2;
        while k < len && !IsLineBreak(sql[k])
          invariant i + 2 <= k <= len
          invariant LineEnd(sql, k) == LineEnd(sql, i + 2)
        {
          k := k + 1;
        }
      }
      return Success(k);
    } else {
      :- CheckRunOver(i + 1, len);
      var k := i;
      if sql[i + 1] == '-' {
        // `--`: run to the first line break or the end
        k := i + 2;
        while k < len && !IsLineBreak(sql[k])
          invariant i + 2 <= k <= len
          invariant LineEnd(sql, k) == LineEnd(sql, i + 2)
        {
          k := k + 1;
        }
      }
      return Success(k);
    }
  }

  /**
   * The skip loops of the escape branch over the array: advance while the
   * character's space-ness equals `space`, failing once the cursor reaches
   * the end; skips spaces (space = true) or a token (space = false).
   */
  method SkipRunIn(chars: array<char>, i: nat, space: bool) returns (r: Result<nat, Error>)
    requires i < chars.Length
    ensures r == SkipRun(chars[..], i, space)
  {
    var k := i;
    while IsSpaceChar(chars[k]) == space
      invariant i <= k < chars.Length
      invariant SkipRun(chars[..], k, space) == SkipRun(chars[..], i, space)
      decreases chars.Length - k
    {
      k := k + 1;
      :- CheckRunOver(k, chars.Length);
    }
    return Success(k);
  }

  /** The digit branch's `while (true)` loop: the index of the `}` that ends a native literal. */
  method ScanLiteral(sql: string, chars: array<char>, from: nat) returns (r: Result<nat, Error>)
    requires from < |sql| && chars.Length == |sql|
    ensures r == LiteralEnd(sql, chars[..], from)
  {
    var i := from;
    while true
      invariant from <= i <= |sql| + 1
      invariant LiteralEnd(sql, chars[..], i) == LiteralEnd(sql, chars[..], from)
      decreases |sql| + 1 - i
    {
      :- CheckRunOver(i, |sql|);
      var c := chars[i];
      if c == '}' {
        return Success(i);
      }
      if IsQuoteOrComment(c) {
        i :- TranslateGetEnd(sql, i, c);
      }
      i := i + 1;
    }
  }

  /** The digit branch: put `{` back before the digit, then find the `}` that closes the literal. */
  method TranslateLiteral(sql: string, chars: array<char>, start: nat) returns (r: Result<nat, Error>)
    requires 0 < start < |sql| && chars.Length == |sql|
    modifies chars
    ensures chars[..] == old(chars[..])[start - 1 := '{']
    ensures r == LiteralEnd(sql, chars[..], start)
  {
    chars[start - 1] := '{';
    r := ScanLiteral(sql, chars, start);
  }

  /**
   * The body of `case '{'` after the copy exists and `level` was raised:
   * blank the brace, skip spaces, then the digit-literal branch or the
   * `? =` prefix, the token scan and the in-place blanking of the keyword.
   * The result is the cursor at the end of the case, before the loop's `i++`.
   */
  method TranslateEscape(sql: string, chars: array<char>, brace: nat, level: int, ghost st: Scanner)
    returns (r: Result<nat, Error>, newLevel: int)
    requires Inv(sql, st) && st.i == brace < |sql| && level == st.level + 1
    requires chars.Length == |sql| && chars[..] == Buffer(sql, st)
    modifies chars
    ensures r.Failure? ==> OpenEscape(sql, st) == Failure(r.error)
    ensures r.Success? ==> OpenEscape(sql, st) == Success(Scanner(r.value + 1, newLevel, Some(chars[..])))
  {
    newLevel := level;
    chars[brace] := ' ';
    assert chars[..] == Buffer(sql, st)[brace := ' '];
    ghost var spaced := chars[..];
    var start :- SkipRunIn(chars, brace, true);
    assert SkipRun(spaced, brace, true) == Success(start);
    r, newLevel := TranslateEscapeBody(sql, chars, start, level);
  }

  /** The digit-literal branch or the keyword branch, from the first non-space character `start` after `{`. */
  method TranslateEscapeBody(sql: string, chars: array<char>, start: nat, level: int)
    returns (r: Result<nat, Error>, newLevel: int)
    requires 0 < start < |sql| && chars.Length == |sql| && 0 < level
    modifies chars
    ensures r.Failure? ==> EscapeBody(sql, level - 1, old(chars[..]), start) == Failure(r.error)
    ensures r.Success? ==>
              EscapeBody(sql, level - 1, old(chars[..]), start) == Success(Scanner(r.value + 1, newLevel, Some(chars[..])))
  {
    newLevel := level;
    if IsDigit(chars[start]) {
      r := TranslateLiteral(sql, chars, start);
      newLevel := level - 1;
    } else {
      r := TranslateKeyword(sql, chars, start, level);
    }
  }

  /**
   * The keyword part of `case '{'`, from the first non-space character
   * `start`: the optional `? =` prefix, the token scan, the keyword table,
   * and the blanking loop. The result is the cursor before the loop's `i++`.
   */
  method TranslateKeyword(sql: string, chars: array<char>, start: nat, level: int) returns (r: Result<nat, Error>)
    requires start < |sql| && chars.Length == |sql| && 0 < level
    modifies chars
    ensures r.Failure? ==> KeywordEscape(sql, level - 1, old(chars[..]), start) == Failure(r.error)
    ensures r.Success? ==>
              KeywordEscape(sql, level - 1, old(chars[..]), start) == Success(Scanner(r.value + 1, level, Some(chars[..])))
  {
    ghost var token := chars[..];
    var i :- ScanToken(sql, chars, start);
    assert KeywordEscape(sql, level - 1, token, start).Success?;
    var dispatch := Keyword(sql, start);
    if dispatch.Remove? {
      i := BlankKeyword(chars, start, dispatch.n);
    }
    return Success(i);
  }

  /** The optional `? =` prefix and the token scan of the keyword branch. */
  method ScanToken(sql: string, chars: array<char>, start: nat) returns (r: Result<nat, Error>)
    requires start < |sql| && chars.Length == |sql|
    ensures r == TokenEnd(sql, chars[..], start)
  {
    var i := start;
    if chars[i] == '?' {
      i :- ReturnAssign(sql, chars, i);
    }
    r := SkipRunIn(chars, i, false);
  }

  /** The `{? = call ...}` prefix: past the `?` at `q`, skip spaces, demand `=`, skip the spaces after it. */
  method ReturnAssign(sql: string, chars: array<char>, q: nat) returns (r: Result<nat, Error>)
    requires q < |sql| && chars.Length == |sql|
    ensures r == AfterReturnAssign(sql, chars[..], q)
  {
    var len := |sql|;
    var i := q + 1;
    :- CheckRunOver(i, len);
    i :- SkipRunIn(chars, i, true);
    if sql[i] != '=' {
      return Failure(SyntaxError(i, Some("=")));
    }
    i := i + 1;
    :- CheckRunOver(i, len);
    i :- SkipRunIn(chars, i, true);
    return Success(i);
  }

  /** The counted blanking loop: overwrite n characters from start with spaces, leaving the cursor at start + n. */
  method BlankKeyword(chars: array<char>, start: nat, n: nat) returns (i: nat)
    requires start + n <= chars.Length
    modifies chars
    ensures i == start + n
    ensures chars[..] == Blanked(old(chars[..]), start, n)
  {
    ghost var token := chars[..];
    var remove := n;
    i := start;
    while remove > 0
      invariant start <= i && i + remove == start + n
      invariant forall k | 0 <= k < chars.Length :: chars[k] == if start <= k < i then ' ' else token[k]
    {
      chars[i] := ' ';
      i := i + 1;
      remove := remove - 1;
    }
  }

  /** The working buffer as the specification sees it: None while `chars` is still null. */
  ghost function Copy(chars: array?<char>): Option<seq<char>>
    reads chars
  {
    if chars == null then None else Some(chars[..])
  }

  /**
   * The body of the main `for` loop at cursor `i`: a quoted or commented
   * span is skipped, `{` opens an escape (copying the input on the first
   * one), `}` closes one, anything else is passed over. The result is the
   * cursor at the end of the body, before the loop's `i++`; `buffer` is the
   * working copy afterwards.
   */
  method TranslateStep(sql: string, chars: array?<char>, i: nat, level: int)
    returns (r: Result<nat, Error>, newLevel: int, buffer: array?<char>)
    requires i < |sql| && Inv(sql, Scanner(i, level, Copy(chars)))
    modifies chars
    ensures buffer != null ==> buffer.Length == |sql| && (buffer == chars || (chars == null && fresh(buffer)))
    ensures r.Failure? ==> Step(sql, Scanner(i, level, old(Copy(chars)))) == Failure(r.error)
    ensures r.Success? ==>
              Step(sql, Scanner(i, level, old(Copy(chars)))) == Success(Scanner(r.value + 1, newLevel, Copy(buffer)))
  {
    ghost var st := Scanner(i, level, Copy(chars));
    newLevel := level;
    buffer := chars;
    var c := sql[i];
    if IsSpanStart(c) {
      r := TranslateGetEnd(sql, i, c);
    } else if c == '{' {
      r, newLevel, buffer := OpenBrace(sql, chars, i, level);
    } else if c == '}' {
      newLevel := level - 1;
      if newLevel < 0 {
        return Failure(SyntaxError(i, None)), newLevel, buffer;
      }
      buffer[i] := ' ';
      r := Success(i);
    } else {
      r := Success(i);
    }
  }

  /** String.toCharArray: a new array holding the characters of `s`. */
  method ToCharArray(s: string) returns (a: array<char>)
    ensures fresh(a) && a[..] == s
  {
    a := new char[|s|](k requires 0 <= k < |s| => s[k]);
  }

  /** `case '{'`: raise the level, copy the input into `chars` if that has not happened yet, then the escape. */
  method OpenBrace(sql: string, chars: array?<char>, i: nat, level: int)
    returns (r: Result<nat, Error>, newLevel: int, buffer: array?<char>)
    requires i < |sql| && Inv(sql, Scanner(i, level, Copy(chars)))
    modifies chars
    ensures buffer != null && buffer.Length == |sql| && (buffer == chars || (chars == null && fresh(buffer)))
    ensures r.Failure? ==> OpenEscape(sql, Scanner(i, level, old(Copy(chars)))) == Failure(r.error)
    ensures r.Success? ==>
              OpenEscape(sql, Scanner(i, level, old(Copy(chars)))) == Success(Scanner(r.value + 1, newLevel, Copy(buffer)))
  {
    ghost var st := Scanner(i, level, Copy(chars));
    newLevel := level + 1;
    buffer := chars;
    if buffer == null {
      buffer := ToCharArray(sql);
    }
    assert buffer[..] == Buffer(sql, st);
    r, newLevel := TranslateEscape(sql, buffer, i, newLevel, st);
  }

  /**
   * translateSQL(sql, escapeProcessing). `None` stands for a null `sql`; a
   * thrown exception is a Failure.
   */
  method TranslateSql(sql: Option<string>, escapeProcessing: bool) returns (r: Result<Translated, Error>)
    ensures r == Translate(sql, escapeProcessing)
  {
    if sql.None? {
      return Failure(InvalidValue);
    }
    var s := sql.value;
    if !escapeProcessing {
      return Success(Translated(s, false));
    }
    if IndexOf(s, '{', 0) < 0 {
      return Success(Translated(s, false));
    }
    r := TranslateLoop(s);
  }

  /** The main `for` loop of translateSQL and the checks after it, once the input holds a `{`. */
  method TranslateLoop(s: string) returns (r: Result<Translated, Error>)
    ensures r == Scan(s, Start())
  {
    var len := |s|;
    var chars: array?<char> := null;
    var level := 0;
    var i := 0;
    ghost var result := Scan(s, Start());
    assert Scanner(i, level, Copy(chars)) == Start();
    while i < len
      invariant 0 <= i <= len + 1
      invariant chars != null ==> fresh(chars) && chars.Length == len
      invariant Inv(s, Scanner(i, level, Copy(chars)))
      invariant Scan(s, Scanner(i, level, Copy(chars))) == result
      decreases len - i
    {
      ghost var st := Scanner(i, level, Copy(chars));
      i, level, chars :- TranslateStep(s, chars, i, level);
      Advanced(s, st, Scanner(i + 1, level, Copy(chars)));
      i := i + 1;
    }
    if level != 0 {
      return Failure(SyntaxError(len - 1, None));
    }
    if chars != null {
      return Success(Translated(chars[..], true));
    }
    return Success(Translated(s, false));
  }
}

=== FILE: results.dfy ===
/** Failure-compatible wrappers for the translator's optional values and thrown errors. */
module Results {

  datatype Option<T> = None | Some(value: T)

  /** A value, or the error the Java code would have thrown. */
  datatype Result<T, E> = Success(value: T) | Failure(error: E) {
    predicate IsFailure() { Failure? }

    function PropagateFailure<U>(): Result<U, E>
      requires Failure?
    {
      Failure(error)
    }

    function Extract(): T
      requires Success?
    {
      value
    }
  }

  /** A check that either passes or throws; propagates into a Result. */
  datatype Outcome<E> = Pass | Fail(error: E) {
    predicate IsFailure() { Fail? }

    function PropagateFailure<U>(): Result<U, E>
      requires Fail?
    {
      Failure(error)
    }
  }
}

=== FILE: sql_text.dfy ===
/**
 * The character and string primitives the translator relies on: Java's
 * Character.isSpaceChar, the case-insensitive String.regionMatches behind
 * `found`, and String.indexOf for one and two characters.
 */
module SqlText {

  /**
   * Character.isSpaceChar: the Unicode space, line and paragraph separators
   * (categories Zs, Zl, Zp). Tab, carriage return and line feed are control
   * characters, not separators, so they are not space characters here.
   */
  predicate IsSpaceChar(c: char)
  {
    || c == ' '
    || c == '\U{00A0}'
    || c == '\U{1680}'
    || ('\U{2000}' <= c <= '\U{200A}')
    || c == '\U{2028}'
    || c == '\U{2029}'
    || c == '\U{202F}'
    || c == '\U{205F}'
    || c == '\U{3000}'
  }

  lemma SpaceCharClass()
    ensures IsSpaceChar(' ') && IsSpaceChar('\U{00A0}') && IsSpaceChar('\U{3000}')
    ensures !IsSpaceChar('\t') && !IsSpaceChar('\r') && !IsSpaceChar('\n')
  {
  }

  predicate IsDigit(c: char)
  {
    '0' <= c <= '9'
  }

  predicate IsLowerWord(w: string)
  {
    forall k | 0 <= k < |w| :: 'a' <= w[k] <= 'z'
  }

  /**
   * Whether `c` equals the lower-case ASCII letter `k` ignoring case, as
   * regionMatches(true, ...) decides it: equal, equal after upper-casing, or
   * equal after upper- then lower-casing. Besides the ASCII capital, this
   * admits LATIN SMALL LETTER LONG S (upper-cases to 'S'), LATIN CAPITAL
   * LETTER I WITH DOT ABOVE and LATIN SMALL LETTER DOTLESS I (fold to 'i'),
   * and KELVIN SIGN (lower-cases to 'k'). No escape keyword contains 'i' or
   * 'k', so the 'i' and 'k' folds never decide a match in the translator.
   */
  predicate MatchesIgnoringCase(c: char, k: char)
    requires 'a' <= k <= 'z'
  {
    || c == k
    || c as int == k as int - 32
    || (k == 's' && c == '\U{017F}')
    || (k == 'i' && (c == '\U{0130}' || c == '\U{0131}'))
    || (k == 'k' && c == '\U{212A}')
  }

  /**
   * Whether the whole of `other` occurs at `start`, ignoring case: a prefix
   * match at `start`, not a whole-token match, and false when `other` would
   * run past the end of `sql`.
   */
  function Found(sql: string, start: nat, other: string): (r: bool)
    requires IsLowerWord(other)
    ensures r ==> start + |other| <= |sql|
    decreases |other|
  {
    if start + |other| > |sql| then false
    else if other == [] then true
    else
      MatchesIgnoringCase(sql[start], other[0])
      && (assert IsLowerWord(other[1..]); Found(sql, start + 1, other[1..]))
  }

  /** found(sql, start, other) holds exactly when every character of `other` matches, ignoring case, from `start` on. */
  lemma {:induction false} FoundMatches(sql: string, start: nat, other: string)
    requires IsLowerWord(other)
    ensures Found(sql, start, other) <==>
              start + |other| <= |sql|
              && forall k | 0 <= k < |other| :: MatchesIgnoringCase(sql[start + k], other[k])
    decreases |other|
  {
    if start + |other| <= |sql| && other != [] {
      assert IsLowerWord(other[1..]);
      FoundMatches(sql, start + 1, other[1..]);
      if Found(sql, start, other) {
        forall k | 0 <= k < |other|
          ensures MatchesIgnoringCase(sql[start + k], other[k])
        {
          if k > 0 {
            assert other[k] == other[1..][k - 1];
            assert sql[start + k] == sql[(start + 1) + (k - 1)];
          }
        }
      } else if MatchesIgnoringCase(sql[start], other[0]) {
        var k :| 0 <= k < |other[1..]| && !MatchesIgnoringCase(sql[start + 1 + k], other[1..][k]);
        assert !MatchesIgnoringCase(sql[start + (k + 1)], other[k + 1]);
      }
    }
  }

  /** String.indexOf(c, from): the first index at or after `from` holding `c`, or -1. */
  function IndexOf(s: string, c: char, from: nat): (r: int)
    ensures r == -1 || (from <= r < |s| && s[r] == c)
    ensures forall k | from <= k < |s| && (r == -1 || k < r) :: s[k] != c
    decreases |s| - from
  {
    if from >= |s| then -1
    else if s[from] == c then from
    else IndexOf(s, c, from + 1)
  }

  /** Whether the two characters `a`, `b` occur at index k. */
  predicate PairAt(s: string, k: int, a: char, b: char)
  {
    0 <= k && k + 1 < |s| && s[k] == a && s[k + 1] == b
  }

  /** String.indexOf(str, from) for a two-character `str` = [a, b]. */
  function IndexOf2(s: string, a: char, b: char, from: nat): (r: int)
    ensures r == -1 || (from <= r && PairAt(s, r, a, b))
    ensures forall k | from <= k && (r == -1 || k < r) :: !PairAt(s, k, a, b)
    decreases |s| - from
  {
    if from + 1 >= |s| then -1
    else if s[from] == a && s[from + 1] == b then from
    else IndexOf2(s, a, b, from + 1)
  }
}

=== FILE: translation_examples.dfy ===
/**
 * Whole translations of small statements, worked through the specification
 * iteration by iteration.
 */
module TranslationExamples {
  import opened Results
  import opened EscapeTranslator
  import opened TranslatorProperties

  /** The first iteration over `{fn f(x)}`: the brace and `fn` become spaces and the cursor moves past them. */
  lemma FunctionOpens()
    ensures Step("{fn f(x)}", Start()) == Success(Scanner(4, 1, Some("    f(x)}")))
  {
    var sql := "{fn f(x)}";
    var chars := " fn f(x)}";
    assert sql[0 := ' '] == chars;
    SkipRunTo(chars, 0, 1, true);
    SkipRunTo(chars, 1, 3, false);
    assert TokenEnd(sql, chars, 1) == Success(3);
    assert Keyword(sql, 1) == Remove(2);
    assert Blanked(chars, 1, 2) == "    f(x)}";
    assert KeywordEscape(sql, 0, chars, 1) == Success(Scanner(4, 1, Some("    f(x)}")));
  }

  /** The rest of the scan over `{fn f(x)}`: `f(x)` is passed over and the closing brace is blanked. */
  lemma FunctionCloses()
    ensures Scan("{fn f(x)}", Scanner(4, 1, Some("    f(x)}"))) == Success(Translated("    f(x) ", true))
  {
    var sql := "{fn f(x)}";
    var chars := "    f(x)}";
    var close := Scanner(8, 1, Some(chars));
    PlainRun(sql, Scanner(4, 1, Some(chars)), 8);
    assert chars[8 := ' '] == "    f(x) ";
    assert Step(sql, close) == Success(Scanner(9, 0, Some("    f(x) ")));
  }

  /** `{fn f(x)}`: the brace, the keyword and the closing brace become spaces; the call is kept. */
  lemma FunctionEscape()
    ensures Translate(Some("{fn f(x)}"), true) == Success(Translated("    f(x) ", true))
  {
    FunctionOpens();
    Advanced("{fn f(x)}", Start(), Scanner(4, 1, Some("    f(x)}")));
    FunctionCloses();
    Scanned("{fn f(x)}");
  }

  /** The first iteration over `{?=call p}`: past `?`, `=` and the token `=call`, nothing but the brace is blanked. */
  lemma ReturnAssignOpens()
    ensures Step("{?=call p}", Start()) == Success(Scanner(2, 1, Some(" ?=call p}")))
  {
    var sql := "{?=call p}";
    var chars := " ?=call p}";
    assert sql[0 := ' '] == chars;
    SkipRunTo(chars, 0, 1, true);
    SkipRunTo(chars, 2, 2, true);
    SkipRunTo(chars, 3, 3, true);
    assert AfterReturnAssign(sql, chars, 1) == Success(3);
    SkipRunTo(chars, 3, 7, false);
    assert TokenEnd(sql, chars, 1) == Success(7);
    ReturnAssignNotBlanked(sql, 1);
    assert Blanked(chars, 1, 0) == chars;
    assert KeywordEscape(sql, 0, chars, 1) == Success(Scanner(2, 1, Some(chars)));
  }

  /** The rest of the scan over `{?=call p}`: `=call p` is passed over and the closing brace is blanked. */
  lemma ReturnAssignCloses()
    ensures Scan("{?=call p}", Scanner(2, 1, Some(" ?=call p}"))) == Success(Translated(" ?=call p ", true))
  {
    var sql := "{?=call p}";
    var chars := " ?=call p}";
    var close := Scanner(9, 1, Some(chars));
    PlainRun(sql, Scanner(2, 1, Some(chars)), 9);
    assert chars[9 := ' '] == " ?=call p ";
    assert Step(sql, close) == Success(Scanner(10, 0, Some(" ?=call p ")));
  }

  /** `{?=call p}`: the table is consulted at the `?`, so only the two braces are blanked. */
  lemma ReturnAssignEscape()
    ensures Translate(Some("{?=call p}"), true) == Success(Translated(" ?=call p ", true))
  {
    ReturnAssignOpens();
    Advanced("{?=call p}", Start(), Scanner(2, 1, Some(" ?=call p}")));
    ReturnAssignCloses();
    Scanned("{?=call p}");
  }

  /** Keywords match as case-insensitive prefixes: `fnord` loses its `fn`. */
  lemma PrefixBlanks()
    ensures Keyword("{fnord x}", 1) == Remove(2)
  {
  }

  /** `table` is taken for the kept keyword `t`. */
  lemma PrefixKeeps()
    ensures Keyword("{table x}", 1) == Keep
  {
  }

  /** Case does not matter: `PARAMS` is removed like `params`. */
  lemma UpperCaseBlanks()
    ensures Keyword("{PARAMS}", 1) == Remove(6)
  {
  }

  /** A brace inside a string literal opens nothing: the input comes back as it is, without a copy. */
  lemma QuotedBrace()
    ensures Translate(Some("x'{'"), true) == Success(Translated("x'{'", false))
  {
    var sql := "x'{'";
    QuoteSpan(sql, 1, '\'');
    assert SpanEnd(sql, 1, '\'') == Success(3);
    Advanced(sql, Start(), Scanner(1, 0, None));
    Advanced(sql, Scanner(1, 0, None), Scanner(4, 0, None));
    Scanned(sql);
  }

  /** In a native literal, a `}` inside a quoted string does not end it; the first `}` after the string does. */
  lemma LiteralSkipsQuotedBrace()
    ensures LiteralEnd("{1 '}' }' }", "{1 '}' }' }", 1) == Success(7)
  {
    var sql := "{1 '}' }' }";
    QuoteSpan(sql, 3, '\'');
    assert SpanEnd(sql, 3, sql[3]) == Success(5);
    LiteralEndPlain(sql, sql, 6, 7);
    assert LiteralEnd(sql, sql, 3) == LiteralEnd(sql, sql, 6);
  }

  /** `SELECT 1 {`: the escape's space skip runs over the end, a syntax error at the input's length. */
  lemma BraceAtEnd()
    ensures Translate(Some("SELECT 1 {"), true) == Failure(SyntaxError(10, None))
  {
    var sql := "SELECT 1 {";
    PlainRun(sql, Start(), 9);
    assert Step(sql, Scanner(9, 0, None)) == Failure(SyntaxError(10, None));
    Stopped(sql, Scanner(9, 0, None));
    Scanned(sql);
  }
}

=== FILE: translator_properties.dfy ===
/**
 * What translateSQL promises about its output, proved about the
 * specification in EscapeTranslator: the only characters it ever writes,
 * the spans it never touches, where it stops with a syntax error, and what
 * each kind of escape does to the buffer and the cursor.
 */
module TranslatorProperties {
  import opened Results
  import opened SqlText
  import opened EscapeTranslator

  /** Nothing at or after the cursor has been overwritten yet. */
  ghost predicate Agrees(sql: string, st: Scanner)
    requires Inv(sql, st)
  {
    forall k | st.i <= k < |sql| :: Buffer(sql, st)[k] == sql[k]
  }

  /**
   * The rewrites translateSQL may make to one character: none, a space over
   * an escape brace or a letter of a removed keyword, or `{` over a space
   * character in front of a native literal.
   */
  predicate AllowedRewrite(orig: char, now: char)
  {
    || now == orig
    || (now == ' ' && (orig == '{' || orig == '}' || IsKeywordLetter(orig)))
    || (now == '{' && IsSpaceChar(orig))
  }

  /** Every character of `buf` is `sql`'s character at the same index, or an allowed rewrite of it. */
  ghost predicate Rewritten(sql: string, buf: seq<char>)
  {
    |buf| == |sql| && forall k | 0 <= k < |sql| :: AllowedRewrite(sql[k], buf[k])
  }

  /** The state properties every state the scan reaches from the start keeps. */
  ghost predicate Sound(sql: string, st: Scanner)
  {
    Inv(sql, st) && Agrees(sql, st) && Rewritten(sql, Buffer(sql, st))
  }

  /** A blanked keyword consists of keyword letters: `fn` or `oj` for two characters, `params` for six. */
  lemma RemovedKeywordLetters(sql: string, start: nat)
    requires Keyword(sql, start).Remove?
    ensures forall k | start <= k < start + Keyword(sql, start).n :: k < |sql| && IsKeywordLetter(sql[k])
  {
    if Found(sql, start, "fn") {
      FoundKeywordLetters(sql, start, "fn");
    } else if Found(sql, start, "oj") {
      FoundKeywordLetters(sql, start, "oj");
    } else if Found(sql, start, "params") {
      FoundKeywordLetters(sql, start, "params");
    }
  }

  /** The keyword branch keeps Sound: it blanks the brace and, for fn, oj and params, the keyword's letters. */
  lemma KeywordEscapeSound(sql: string, st: Scanner, start: nat)
    requires Sound(sql, st) && st.i < start < |sql| && sql[st.i] == '{'
    requires KeywordEscape(sql, st.level, Buffer(sql, st)[st.i := ' '], start).Success?
    ensures Sound(sql, KeywordEscape(sql, st.level, Buffer(sql, st)[st.i := ' '], start).value)
  {
    var chars := Buffer(sql, st)[st.i := ' '];
    var next := KeywordEscape(sql, st.level, chars, start).value;
    match Keyword(sql, start)
    case Keep =>
      assert next.chars == Some(chars);
    case Remove(n) =>
      RemovedKeywordLetters(sql, start);
      assert next.chars == Some(Blanked(chars, start, n));
      forall k | 0 <= k < |sql|
        ensures AllowedRewrite(sql[k], Blanked(chars, start, n)[k])
      {
        if start <= k < start + n {
          assert IsKeywordLetter(sql[k]);
        } else if k != st.i {
          assert Blanked(chars, start, n)[k] == Buffer(sql, st)[k];
        }
      }
  }

  /** The native-literal branch keeps Sound: the `{` it writes lands on the blanked brace or on a space character. */
  lemma NativeLiteralSound(sql: string, st: Scanner, start: nat)
    requires Sound(sql, st) && st.i < start < |sql| && sql[st.i] == '{'
    requires forall k | st.i < k < start :: IsSpaceChar(sql[k])
    requires NativeLiteral(sql, st.level, Buffer(sql, st)[st.i := ' '], start).Success?
    ensures Sound(sql, NativeLiteral(sql, st.level, Buffer(sql, st)[st.i := ' '], start).value)
  {
    var chars := Buffer(sql, st)[st.i := ' '];
    var literal := chars[start - 1 := '{'];
    assert NativeLiteral(sql, st.level, chars, start).value.chars == Some(literal);
    forall k | 0 <= k < |sql|
      ensures AllowedRewrite(sql[k], literal[k])
    {
      if k == start - 1 && k != st.i {
        assert IsSpaceChar(sql[k]);
      }
    }
  }

  /** The `{` branch keeps Sound. */
  lemma OpenEscapeSound(sql: string, st: Scanner)
    requires Sound(sql, st) && st.i < |sql| && sql[st.i] == '{'
    requires OpenEscape(sql, st).Success?
    ensures Sound(sql, OpenEscape(sql, st).value)
  {
    var chars := Buffer(sql, st)[st.i := ' '];
    var start := SkipRun(chars, st.i, true).value;
    assert start > st.i;
    assert OpenEscape(sql, st) == EscapeBody(sql, st.level, chars, start);
    if IsDigit(chars[start]) {
      forall k | st.i < k < start
        ensures IsSpaceChar(sql[k])
      {
        assert IsSpaceChar(chars[k]);
      }
      NativeLiteralSound(sql, st, start);
    } else {
      KeywordEscapeSound(sql, st, start);
    }
  }

  /** One iteration keeps Sound. */
  lemma StepSound(sql: string, st: Scanner)
    requires Sound(sql, st) && st.i < |sql|
    requires Step(sql, st).Success?
    ensures Sound(sql, Step(sql, st).value)
  {
    var c := sql[st.i];
    if c == '{' {
      OpenEscapeSound(sql, st);
    } else if c == '}' {
      var next := Step(sql, st).value;
      assert Buffer(sql, next) == Buffer(sql, st)[st.i := ' '];
    }
  }

  /** A successful scan from a Sound state returns a text in which every character is an allowed rewrite of the input's. */
  lemma {:induction false} ScanRewrites(sql: string, st: Scanner)
    requires Sound(sql, st) && Scan(sql, st).Success?
    ensures Rewritten(sql, Scan(sql, st).value.text)
    decreases |sql| - st.i
  {
    if st.i < |sql| {
      var next := Step(sql, st).value;
      StepSound(sql, st);
      Advanced(sql, st, next);
      ScanRewrites(sql, next);
    }
  }

  /**
   * translateSQL changes nothing but escape braces, the letters of the
   * fn, oj and params keywords (to spaces) and the space in front of a
   * native literal (to `{`); the output has the input's length.
   */
  lemma TranslateRewrites(sql: string, escapeProcessing: bool)
    requires Translate(Some(sql), escapeProcessing).Success?
    ensures Rewritten(sql, Translate(Some(sql), escapeProcessing).value.text)
  {
    if escapeProcessing && IndexOf(sql, '{', 0) >= 0 {
      ScanRewrites(sql, Start());
    }
  }

  /** `to` is reached from `from` by zero or more successful iterations of the `for` loop. */
  ghost predicate Reaches(sql: string, from: Scanner, to: Scanner)
    requires Inv(sql, from)
    ensures Reaches(sql, from, to) ==> Inv(sql, to)
    decreases |sql| - from.i
  {
    || from == to
    || (from.i < |sql| && Step(sql, from).Success? && Reaches(sql, Step(sql, from).value, to))
  }

  /** A state reached from a Sound state is Sound, and the scan from it ends as the scan from where it started. */
  lemma {:induction false} ReachesSound(sql: string, from: Scanner, to: Scanner)
    requires Sound(sql, from) && Reaches(sql, from, to)
    ensures Sound(sql, to) && from.i <= to.i && Scan(sql, from) == Scan(sql, to)
    decreases |sql| - from.i
  {
    if from != to {
      var next := Step(sql, from).value;
      StepSound(sql, from);
      Advanced(sql, from, next);
      ReachesSound(sql, next, to);
    }
  }

  /** Every state the loop visits still holds the input's characters from its cursor on. */
  lemma ReachedAgrees(sql: string, st: Scanner)
    requires Reaches(sql, Start(), st)
    ensures Inv(sql, st) && Agrees(sql, st)
  {
    ReachesSound(sql, Start(), st);
  }

  /** Every state the loop visits keeps the invariants: a nesting level >= 0 and a copy whenever a brace is open. */
  lemma Visited(sql: string, st: Scanner)
    requires Reaches(sql, Start(), st)
    ensures Sound(sql, st) && Scan(sql, Start()) == Scan(sql, st)
    ensures 0 <= st.level && (st.level > 0 ==> st.chars.Some?)
  {
    ReachesSound(sql, Start(), st);
  }

  /** An iteration writes only at or after its cursor, so the characters below the cursor are final. */
  lemma StepSettles(sql: string, st: Scanner)
    requires Sound(sql, st) && st.i < |sql| && Step(sql, st).Success?
    ensures forall k | 0 <= k < st.i :: Buffer(sql, Step(sql, st).value)[k] == Buffer(sql, st)[k]
  {
    var c := sql[st.i];
    if c == '{' {
      var chars := Buffer(sql, st)[st.i := ' '];
      var start := SkipRun(chars, st.i, true).value;
      assert OpenEscape(sql, st) == EscapeBody(sql, st.level, chars, start);
      if !IsDigit(chars[start]) && Keyword(sql, start).Remove? {
        var n := Keyword(sql, start).n;
        assert Buffer(sql, Step(sql, st).value) == Blanked(chars, start, n);
      }
    }
  }

  /** The text a successful scan returns holds, below the scan's cursor, what the buffer holds there. */
  lemma {:induction false} ScanSettles(sql: string, st: Scanner)
    requires Sound(sql, st) && Scan(sql, st).Success?
    ensures forall k | 0 <= k < st.i && k < |sql| :: Scan(sql, st).value.text[k] == Buffer(sql, st)[k]
    decreases |sql| - st.i
  {
    if st.i < |sql| {
      var next := Step(sql, st).value;
      StepSound(sql, st);
      StepSettles(sql, st);
      Advanced(sql, st, next);
      ScanSettles(sql, next);
    }
  }

  /** The scan starts only when the input holds a `{`; it is then the whole of translateSQL. */
  lemma Scanned(sql: string)
    requires '{' in sql
    ensures Translate(Some(sql), true) == Scan(sql, Start())
  {
    assert sql[IndexOf(sql, '{', 0)] == '{';
  }

  /**
   * A quoted or commented span the loop meets is passed over whole: the
   * iteration jumps one past its end with the level and the buffer as they
   * were, so braces inside it count for nothing, and the output holds the
   * input's characters all along it.
   */
  lemma SpanKept(sql: string, st: Scanner)
    requires '{' in sql && Reaches(sql, Start(), st) && st.i < |sql| && IsSpanStart(sql[st.i])
    requires Translate(Some(sql), true).Success?
    ensures SpanEnd(sql, st.i, sql[st.i]).Success?
    ensures Step(sql, st) == Success(st.(i := SpanEnd(sql, st.i, sql[st.i]).value + 1))
    ensures forall k | st.i <= k <= SpanEnd(sql, st.i, sql[st.i]).value && k < |sql| ::
              Translate(Some(sql), true).value.text[k] == sql[k]
  {
    Visited(sql, st);
    Scanned(sql);
    assert Scan(sql, st) == Continue(sql, st);
    var next := Step(sql, st).value;
    assert next == st.(i := SpanEnd(sql, st.i, sql[st.i]).value + 1);
    StepSound(sql, st);
    Advanced(sql, st, next);
    ScanSettles(sql, next);
  }

  /** A character that opens no span, escape or close is passed over: only the cursor moves. */
  predicate Plain(c: char)
  {
    !IsSpanStart(c) && c != '{' && c != '}'
  }

  /** A run of plain characters leaves the level and the buffer as they were; the scan just continues after it. */
  lemma {:induction false} PlainRun(sql: string, st: Scanner, j: nat)
    requires Inv(sql, st) && st.i <= j <= |sql|
    requires forall k | st.i <= k < j :: Plain(sql[k])
    ensures Scan(sql, st) == Scan(sql, st.(i := j))
    decreases j - st.i
  {
    if st.i < j {
      var next := st.(i := st.i + 1);
      assert Step(sql, st) == Success(next);
      Advanced(sql, st, next);
      PlainRun(sql, next, j);
    }
  }

  /** A failing iteration anywhere along the scan is what translateSQL throws. */
  lemma StepFailureIsFinal(sql: string, st: Scanner)
    requires '{' in sql && Reaches(sql, Start(), st) && st.i < |sql| && Step(sql, st).Failure?
    ensures Translate(Some(sql), true) == Failure(Step(sql, st).error)
  {
    Visited(sql, st);
    Scanned(sql);
    Stopped(sql, st);
  }

  /** An unterminated quote, `$$` block or block comment is a syntax error at its opening index. */
  lemma UnterminatedSpan(sql: string, st: Scanner)
    requires '{' in sql && Reaches(sql, Start(), st) && st.i < |sql|
    requires || ((sql[st.i] == '\'' || sql[st.i] == '"') && forall k | st.i < k < |sql| :: sql[k] != sql[st.i])
             || (sql[st.i] == '$' && DollarOpens(sql, st.i) && forall k | st.i + 2 <= k :: !PairAt(sql, k, '$', '$'))
             || (OpensBlockComment(sql, st.i, sql[st.i]) && forall k | st.i + 2 <= k :: !PairAt(sql, k, '*', '/'))
    ensures Translate(Some(sql), true) == Failure(SyntaxError(st.i, None))
  {
    var c := sql[st.i];
    if c == '\'' || c == '"' {
      QuoteSpan(sql, st.i, c);
    } else if c == '$' {
      DollarSpan(sql, st.i);
    } else {
      BlockCommentSpan(sql, st.i);
    }
    StepFailureIsFinal(sql, st);
  }

  /** A `/` or `-` reached as the last character runs over the end: a syntax error at the input's length. */
  lemma TrailingSlashOrDash(sql: string, st: Scanner)
    requires '{' in sql && Reaches(sql, Start(), st) && st.i == |sql| - 1
    requires sql[st.i] == '/' || sql[st.i] == '-'
    ensures Translate(Some(sql), true) == Failure(SyntaxError(|sql|, None))
  {
    StepFailureIsFinal(sql, st);
  }

  /** A `}` reached while no escape is open is a syntax error at the brace. */
  lemma UnmatchedClose(sql: string, st: Scanner)
    requires '{' in sql && Reaches(sql, Start(), st) && st.i < |sql|
    requires sql[st.i] == '}' && st.level == 0
    ensures Translate(Some(sql), true) == Failure(SyntaxError(st.i, None))
  {
    StepFailureIsFinal(sql, st);
  }

  /** A `}` reached while an escape is open closes it: the level drops by one and the brace becomes a space in the output. */
  lemma CloseBrace(sql: string, st: Scanner)
    requires '{' in sql && Reaches(sql, Start(), st) && st.i < |sql|
    requires sql[st.i] == '}' && st.level > 0
    requires Translate(Some(sql), true).Success?
    ensures Step(sql, st) == Success(Scanner(st.i + 1, st.level - 1, Some(Buffer(sql, st)[st.i := ' '])))
    ensures Translate(Some(sql), true).value.text[st.i] == ' '
  {
    Visited(sql, st);
    Scanned(sql);
    var next := Step(sql, st).value;
    StepSound(sql, st);
    Advanced(sql, st, next);
    ScanSettles(sql, next);
  }

  /**
   * A `{` followed only by space characters runs over the end while the
   * spaces are skipped: a syntax error at the input's length, not the
   * unclosed-escape error at the last index.
   */
  lemma BraceRunsOver(sql: string, st: Scanner)
    requires Reaches(sql, Start(), st) && st.i < |sql| && sql[st.i] == '{'
    requires forall k | st.i < k < |sql| :: IsSpaceChar(sql[k])
    ensures Translate(Some(sql), true) == Failure(SyntaxError(|sql|, None))
  {
    ReachedAgrees(sql, st);
    var chars := Buffer(sql, st)[st.i := ' '];
    assert SkipRun(chars, st.i, true) == Failure(SyntaxError(|sql|, None));
    assert Step(sql, st) == Failure(SyntaxError(|sql|, None));
    StepFailureIsFinal(sql, st);
  }

  /** An escape still open when the loop ends is a syntax error at the last index. */
  lemma UnclosedEscape(sql: string, st: Scanner)
    requires Reaches(sql, Start(), st) && |sql| <= st.i && st.level != 0
    ensures Translate(Some(sql), true) == Failure(SyntaxError(|sql| - 1, None))
  {
    Visited(sql, st);
    assert st.level != 0 && Start().level == 0;
    assert '{' in sql by {
      if '{' !in sql {
        ReachesNoBrace(sql, Start(), st);
      }
    }
    Scanned(sql);
  }

  /** Without a `{` ahead of the cursor, an iteration never opens an escape, so the level never rises. */
  lemma {:induction false} ReachesNoBrace(sql: string, from: Scanner, to: Scanner)
    requires Inv(sql, from) && Reaches(sql, from, to)
    requires forall k | from.i <= k < |sql| :: sql[k] != '{'
    ensures to.level <= from.level
    decreases |sql| - from.i
  {
    if from != to {
      var next := Step(sql, from).value;
      ReachesNoBrace(sql, next, to);
    }
  }

  /** SkipRun stops exactly at the first character on the other side of the run. */
  lemma SkipRunTo(buf: seq<char>, i: nat, j: nat, space: bool)
    requires i <= j < |buf| && IsSpaceChar(buf[j]) != space
    requires forall k | i <= k < j :: IsSpaceChar(buf[k]) == space
    ensures SkipRun(buf, i, space) == Success(j)
  {
  }

  /**
   * At a `{` reached by the scan and followed by space characters up to
   * `start`, the iteration goes on with the escape's body at `start`, on a
   * buffer that agrees with the input after the brace.
   */
  lemma BraceBody(sql: string, st: Scanner, start: nat)
    requires st.i < start < |sql| && Inv(sql, st) && Agrees(sql, st) && sql[st.i] == '{' && !IsSpaceChar(sql[start])
    requires forall k | st.i < k < start :: IsSpaceChar(sql[k])
    ensures var chars := Buffer(sql, st)[st.i := ' '];
            && Step(sql, st) == EscapeBody(sql, st.level, chars, start)
            && forall k | st.i < k < |sql| :: chars[k] == sql[k]
  {
    var chars := Buffer(sql, st)[st.i := ' '];
    SkipRunTo(chars, st.i, start, true);
  }

  /**
   * `{` followed, after space characters, by `?` and then by anything but
   * `=` after further spaces is a syntax error at that character, with `=`
   * as the expected token.
   */
  lemma MissingAssign(sql: string, st: Scanner, q: nat, p: nat)
    requires st.i < q < p < |sql| && Reaches(sql, Start(), st) && sql[st.i] == '{'
    requires sql[q] == '?' && sql[p] != '=' && !IsSpaceChar(sql[p])
    requires forall k | st.i < k < q :: IsSpaceChar(sql[k])
    requires forall k | q < k < p :: IsSpaceChar(sql[k])
    ensures Translate(Some(sql), true) == Failure(SyntaxError(p, Some("=")))
  {
    ReachedAgrees(sql, st);
    MissingAssignStep(sql, st, q, p);
    StepFailureIsFinal(sql, st);
  }

  /** The iteration at such a `{` fails with `=` expected at `p`. */
  lemma MissingAssignStep(sql: string, st: Scanner, q: nat, p: nat)
    requires st.i < q < p < |sql| && Inv(sql, st) && Agrees(sql, st) && sql[st.i] == '{'
    requires sql[q] == '?' && sql[p] != '=' && !IsSpaceChar(sql[p])
    requires forall k | st.i < k < q :: IsSpaceChar(sql[k])
    requires forall k | q < k < p :: IsSpaceChar(sql[k])
    ensures Step(sql, st) == Failure(SyntaxError(p, Some("=")))
  {
    BraceBody(sql, st, q);
    var chars := Buffer(sql, st)[st.i := ' '];
    ReturnAssignFails(sql, chars, q, p);
    assert Step(sql, st) == KeywordEscape(sql, st.level, chars, q);
  }

  /** Past `?` and space characters, anything but `=` is where the token scan fails, expecting `=`. */
  lemma ReturnAssignFails(sql: string, chars: seq<char>, q: nat, p: nat)
    requires q < p < |sql| && |chars| == |sql| && chars[q] == '?' && sql[p] != '=' && !IsSpaceChar(chars[p])
    requires forall k | q < k < p :: IsSpaceChar(chars[k])
    ensures TokenEnd(sql, chars, q) == Failure(SyntaxError(p, Some("=")))
  {
    SkipRunTo(chars, q + 1, p, true);
  }

  /** A token after `{` that runs to the end of the input without a following space is a syntax error at the input's length. */
  lemma TokenRunsOver(sql: string, st: Scanner, start: nat)
    requires st.i < start < |sql| && Reaches(sql, Start(), st) && sql[st.i] == '{'
    requires !IsSpaceChar(sql[start]) && !IsDigit(sql[start]) && sql[start] != '?'
    requires forall k | st.i < k < start :: IsSpaceChar(sql[k])
    requires forall k | start <= k < |sql| :: !IsSpaceChar(sql[k])
    ensures Translate(Some(sql), true) == Failure(SyntaxError(|sql|, None))
  {
    ReachedAgrees(sql, st);
    TokenRunsOverStep(sql, st, start);
    StepFailureIsFinal(sql, st);
  }

  /** The iteration at such a `{` runs over the end of the input. */
  lemma TokenRunsOverStep(sql: string, st: Scanner, start: nat)
    requires st.i < start < |sql| && Inv(sql, st) && Agrees(sql, st) && sql[st.i] == '{'
    requires !IsSpaceChar(sql[start]) && !IsDigit(sql[start]) && sql[start] != '?'
    requires forall k | st.i < k < start :: IsSpaceChar(sql[k])
    requires forall k | start <= k < |sql| :: !IsSpaceChar(sql[k])
    ensures Step(sql, st) == Failure(SyntaxError(|sql|, None))
  {
    BraceBody(sql, st, start);
    var chars := Buffer(sql, st)[st.i := ' '];
    assert TokenEnd(sql, chars, start) == SkipRun(chars, start, false);
    assert Step(sql, st) == KeywordEscape(sql, st.level, chars, start);
  }

  /**
   * The digit branch: the brace becomes a space, `{` is written just before
   * the digit, the first `}` past the digit (outside quotes and comments)
   * stays and the cursor resumes after it, and the level is unchanged.
   */
  lemma EscapeLiteral(sql: string, st: Scanner, start: nat)
    requires st.i < start < |sql| && Inv(sql, st) && Agrees(sql, st) && sql[st.i] == '{'
    requires IsDigit(sql[start]) && forall k | st.i < k < start :: IsSpaceChar(sql[k])
    requires Step(sql, st).Success?
    ensures var next := Step(sql, st).value;
            && next.level == st.level
            && Buffer(sql, next) == Buffer(sql, st)[st.i := ' '][start - 1 := '{']
            && start < next.i <= |sql| && Buffer(sql, next)[next.i - 1] == '}'
    ensures var next := Step(sql, st).value;
            && LiteralVisits(sql, Buffer(sql, next), start, next.i - 1)
            && forall s | start <= s < next.i - 1 && LiteralVisits(sql, Buffer(sql, next), start, s) ::
                 Buffer(sql, next)[s] != '}'
  {
    BraceBody(sql, st, start);
    var chars := Buffer(sql, st)[st.i := ' '];
    assert Step(sql, st) == NativeLiteral(sql, st.level, chars, start);
    LiteralEndFirst(sql, chars[start - 1 := '{'], start);
  }

  /**
   * The keyword branch for a removed keyword (`fn`, `oj`, `params`, or
   * nothing for any other token): the brace and the keyword become spaces,
   * the level rises by one and the cursor resumes one past the keyword.
   */
  lemma EscapeRemovesKeyword(sql: string, st: Scanner, start: nat)
    requires st.i < start < |sql| && Inv(sql, st) && Agrees(sql, st) && sql[st.i] == '{'
    requires !IsSpaceChar(sql[start]) && !IsDigit(sql[start]) && Keyword(sql, start).Remove?
    requires forall k | st.i < k < start :: IsSpaceChar(sql[k])
    requires Step(sql, st).Success?
    ensures var next := Step(sql, st).value;
            && next.level == st.level + 1
            && next.i == start + Keyword(sql, start).n + 1
            && Buffer(sql, next) == Blanked(Buffer(sql, st)[st.i := ' '], start, Keyword(sql, start).n)
  {
    BraceBody(sql, st, start);
  }

  /**
   * The keyword branch for a kept keyword (`escape`, `call`, `ts`, `t`,
   * `d`): only the brace becomes a space and the level rises by one.
   */
  lemma EscapeKeepsKeyword(sql: string, st: Scanner, start: nat)
    requires st.i < start < |sql| && Inv(sql, st) && Agrees(sql, st) && sql[st.i] == '{'
    requires !IsSpaceChar(sql[start]) && !IsDigit(sql[start]) && Keyword(sql, start).Keep?
    requires forall k | st.i < k < start :: IsSpaceChar(sql[k])
    requires Step(sql, st).Success?
    ensures Step(sql, st).value.level == st.level + 1
    ensures Buffer(sql, Step(sql, st).value) == Buffer(sql, st)[st.i := ' ']
  {
    KeptStep(sql, st, start);
  }

  /** After a kept keyword the cursor resumes one past the space character that ends the token. */
  lemma KeptResume(sql: string, st: Scanner, start: nat)
    requires st.i < start < |sql| && Inv(sql, st) && Agrees(sql, st) && sql[st.i] == '{'
    requires !IsSpaceChar(sql[start]) && !IsDigit(sql[start]) && Keyword(sql, start).Keep?
    requires forall k | st.i < k < start :: IsSpaceChar(sql[k])
    requires Step(sql, st).Success?
    ensures var resume := Step(sql, st).value.i;
            && start + 1 < resume <= |sql| && IsSpaceChar(sql[resume - 1])
            && forall k | start <= k < resume - 1 :: !IsSpaceChar(sql[k])
  {
    KeptStep(sql, st, start);
    var chars := Buffer(sql, st)[st.i := ' '];
    TokenOfInput(sql, chars, st.i, start);
  }

  /** The kept-keyword iteration in terms of the token scan over the buffer. */
  lemma KeptStep(sql: string, st: Scanner, start: nat)
    requires st.i < start < |sql| && Inv(sql, st) && Agrees(sql, st) && sql[st.i] == '{'
    requires !IsSpaceChar(sql[start]) && !IsDigit(sql[start]) && Keyword(sql, start).Keep?
    requires forall k | st.i < k < start :: IsSpaceChar(sql[k])
    requires Step(sql, st).Success?
    ensures var chars := Buffer(sql, st)[st.i := ' '];
            && (forall k | st.i < k < |sql| :: chars[k] == sql[k])
            && SkipRun(chars, start, false).Success?
            && Step(sql, st).value == Scanner(SkipRun(chars, start, false).value + 1, st.level + 1, Some(chars))
  {
    BraceBody(sql, st, start);
    var chars := Buffer(sql, st)[st.i := ' '];
    if sql[start] == '?' {
      ReturnAssignNotBlanked(sql, start);
    }
    assert Step(sql, st) == KeywordEscape(sql, st.level, chars, start);
    KeptToken(sql, st.level, chars, start);
  }

  /** Where the buffer agrees with the input, the token it skips is a token of the input. */
  lemma TokenOfInput(sql: string, chars: seq<char>, brace: nat, start: nat)
    requires brace < start < |sql| && |chars| == |sql| && !IsSpaceChar(sql[start])
    requires forall k | brace < k < |sql| :: chars[k] == sql[k]
    requires SkipRun(chars, start, false).Success?
    ensures var tokenEnd := SkipRun(chars, start, false).value;
            && start < tokenEnd && IsSpaceChar(sql[tokenEnd])
            && forall k | start <= k < tokenEnd :: !IsSpaceChar(sql[k])
  {
  }

  /** A kept keyword's escape resumes one past the space character that ends its token. */
  lemma KeptToken(sql: string, level: int, chars: seq<char>, start: nat)
    requires start < |sql| && |chars| == |sql| && 0 <= level && chars[start] != '?'
    requires Keyword(sql, start).Keep? && KeywordEscape(sql, level, chars, start).Success?
    ensures SkipRun(chars, start, false).Success?
    ensures KeywordEscape(sql, level, chars, start).value
            == Scanner(SkipRun(chars, start, false).value + 1, level + 1, Some(chars))
  {
    assert TokenEnd(sql, chars, start) == SkipRun(chars, start, false);
  }

  /**
   * The keyword table by first letters: no two keywords but `t` and `ts`
   * share a first letter, so the fixed order of the tests only matters
   * between those two, which both keep the token. Two characters are
   * blanked exactly for a token starting with `fn` or `oj`...
   */
  lemma KeywordBlanksTwo(sql: string, start: nat)
    ensures Keyword(sql, start) == Remove(2) <==> Found(sql, start, "fn") || Found(sql, start, "oj")
  {
  }

  /** ... six exactly for one starting with `params`... */
  lemma KeywordBlanksSix(sql: string, start: nat)
    ensures Keyword(sql, start) == Remove(6) <==> Found(sql, start, "params")
  {
  }

  /** ... and the token is kept exactly when it starts with `escape`, `call`, `t` or `d`. */
  lemma KeywordKeeps(sql: string, start: nat)
    ensures Keyword(sql, start) == Keep <==>
              || Found(sql, start, "escape") || Found(sql, start, "call")
              || Found(sql, start, "t") || Found(sql, start, "d")
  {
    assert Found(sql, start, "ts") ==> Found(sql, start, "t");
  }

  /** After `{?` the table is consulted at the `?`, which matches no keyword: neither `?` nor `=` is ever blanked. */
  lemma ReturnAssignNotBlanked(sql: string, start: nat)
    requires start < |sql| && sql[start] == '?'
    ensures Keyword(sql, start) == Remove(0)
  {
  }

  /** An output without `{` translates to itself, unchanged and not rebuilt. */
  lemma RetranslateIdentity(sql: string, escapeProcessing: bool, again: bool)
    requires Translate(Some(sql), escapeProcessing).Success?
    requires '{' !in Translate(Some(sql), escapeProcessing).value.text
    ensures var text := Translate(Some(sql), escapeProcessing).value.text;
            Translate(Some(text), again) == Success(Translated(text, false))
  {
  }
}
